=== FILE: README.md ===
# Job board authorization layer

A Dafny model of the business-rule layer of a job board web API. Three
services sit on top of three repositories:

- the user service: registration, login, bulk creation, profile update and delete;
- the job service: creating, updating and deleting job postings;
- the application service: creating, updating, deleting and listing job applications.

Every write of the job and application services checks an explicit actor id
against the stored users, jobs and applications before it touches anything.
The user service takes no actor: its writes check only their own input, and
delete checks nothing.

The three database tables are modelled as one `Store` of three maps from id
to record (`users`, `jobs`, `applications`). Each repository call becomes a
pure function or method over a map. Each service operation becomes a pure
function from `(store, inputs)` to a `Reply(outcome, store')`. The
`Outcome` type separates four results:

- `Ok`: a value;
- `ArgumentError(Violation)`: the service throws `ArgumentException`;
- `OperationError(Cause)`: the service throws `InvalidOperationException`;
- `NotUpdated`: the silent `false` of the update operations.

Files:

- `base.dfy`: `Option`, ids, timestamps, `IsNullOrEmpty`, three set lemmas.
- `records.dfy`: the `User`, `Job` and `Application` rows, the store, the outcome types and the store invariants:
  - rows keyed by their own id;
  - unique emails and full names;
  - at most one application per `(user, job)` pair.
- `paging.dfy`: the filtered, ordered, paged listing the job and application repositories share.
- `user_repository.dfy`, `job_repository.dfy`, `application_repository.dfy`: the meaning of each SQL statement.
- `user_service.dfy`, `job_service.dfy`, `application_service.dfy`: the rules, with the properties relating operations to each other and to the invariants.

The model has these inputs:

- The clock (`DateTime.UtcNow`) and `Guid.NewGuid()` are parameters: `now` (one reading per batch entry in `nows` for bulk create), plus `newId`/`ids`, which are required to be absent from the store.
- BCrypt hashing is salted and non-deterministic. Its result is a parameter (`hashed`, or one hash per batch entry in `hashes`), so no contract treats the hash as a function of the password.
- `BCrypt.Verify` is a caller-supplied predicate `verify`.

## Model

| member | source | states |
|---|---|---|
| Base.CountPositive | Backend/JobBoardAPI/JobBoardAPI.Repository/UserRepository.cs:81-85 | a `COUNT(1) > 0` test over a finite set of rows holds exactly when some row matches |
| Base.Least | Backend/JobBoardAPI/JobBoardAPI.Repository/UserRepository.cs:166-171 | every non-empty set of ids has a member no greater than any other, which fixes the one row a lookup returns |
| Base.LeastExists | Backend/JobBoardAPI/JobBoardAPI.Repository/UserRepository.cs:166-171 | a non-empty set of ids has a least element, so a query that returns "one of the matching rows" can be modelled by a fixed choice |
| Paging.CoercePage | Backend/JobBoardAPI/JobBoardAPI.Repository/JobRepository.cs:21 | the page number is at least 1: a page below 1 becomes 1 and any other passes unchanged |
| Paging.Offset | Backend/JobBoardAPI/JobBoardAPI.Repository/JobRepository.cs:46-48 | the rows skipped before the requested page are exactly `page - 1` whole pages: the offset is a multiple of the page size and divides to `page - 1`; `Paging.Window` and `Paging.WindowOfListing` state what is fetched from there |
| Paging.Window | Backend/JobBoardAPI/JobBoardAPI.Repository/JobRepository.cs:46-48 | `OFFSET offset ROWS FETCH NEXT size ROWS ONLY`: empty past the end of the listing; `size` rows when that many remain, otherwise the rest; the `k`-th row of the page is the `(offset + k)`-th of the listing |
| Paging.CoercePageSize | Backend/JobBoardAPI/JobBoardAPI.Repository/JobRepository.cs:22 | the page size is at least 1: a size below 1 becomes 5 and any other passes unchanged |
| Paging.InsertDesc | Backend/JobBoardAPI/JobBoardAPI.Repository/JobRepository.cs:46 | inserting a row into a newest-first listing keeps it newest first and adds exactly that row (multiset) |
| Paging.PrependDescending | Backend/JobBoardAPI/JobBoardAPI.Repository/JobRepository.cs:46 | a row at least as new as the head of a newest-first listing can be put in front of it |
| Paging.BoundCarries | Backend/JobBoardAPI/JobBoardAPI.Repository/JobRepository.cs:46 | a timestamp bound on every row of a listing holds for any permutation of that listing |
| Paging.Page | Backend/JobBoardAPI/JobBoardAPI.Repository/JobRepository.cs:19-88 | the result carries the coerced page and size; the total counts every selected row; the items are the window at offset `(page-1)*pageSize`, at most `pageSize` long, of some newest-first listing holding each selected row exactly once |
| Paging.WindowOfListing | Backend/JobBoardAPI/JobBoardAPI.Repository/JobRepository.cs:46-48 | whatever the tie order, a page has at most `pageSize` rows and at most the number of selected rows; it is empty past the end; its rows are newest first; each row is a selected row |
| UserRepository.All | Backend/JobBoardAPI/JobBoardAPI.Repository/UserRepository.cs:19-43 | every stored user is listed and every listed user is stored |
| UserRepository.FindById | Backend/JobBoardAPI/JobBoardAPI.Repository/UserRepository.cs:45-71 | a user is found exactly when the id is stored, and it is the stored row |
| UserRepository.RoleGate | Backend/JobBoardAPI/JobBoardAPI.Service/JobService.cs:46-48 | the role gate of every write (the actor's row looked up by id, and its role compared with the required one) passes exactly when `Records.ActsAs` holds, and no actor passes two different role gates |
| UserRepository.UsernameExists | Backend/JobBoardAPI/JobBoardAPI.Repository/UserRepository.cs:73-88 | false for a null or empty name; otherwise true exactly when some user's full name equals it |
| UserRepository.EmailExists | Backend/JobBoardAPI/JobBoardAPI.Repository/UserRepository.cs:90-105 | false for a null or empty email; otherwise true exactly when some user's email equals it |
| UserRepository.FindByEmail | Backend/JobBoardAPI/JobBoardAPI.Repository/UserRepository.cs:161-187 | a user is returned exactly when some row holds that (non-null) email, and the returned user is a stored row with that email |
| UserRepository.FindByUniqueEmail | Backend/JobBoardAPI/JobBoardAPI.Repository/UserRepository.cs:166-182 | when emails are unique, the lookup returns the one row holding the email |
| UserRepository.Create | Backend/JobBoardAPI/JobBoardAPI.Repository/UserRepository.cs:189-205 | the single-row insert adds the row exactly as given, with the caller's id and creation time, and changes no other row |
| UserRepository.Stamped | Backend/JobBoardAPI/JobBoardAPI.Repository/UserRepository.cs:116-123 | a batch row gets the fresh id; its creation time is the clock only when the given one is the default; the other columns are kept |
| UserRepository.CreateBatch | Backend/JobBoardAPI/JobBoardAPI.Repository/UserRepository.cs:107-128 | the batch insert adds one row per entry under its fresh id, stamped as above, and keeps every earlier row |
| UserRepository.Update | Backend/JobBoardAPI/JobBoardAPI.Repository/UserRepository.cs:130-146 | reports true exactly when the row exists; overwrites full name, email, hash and role; keeps id and creation time; leaves all other rows and, when absent, the whole table |
| UserRepository.Delete | Backend/JobBoardAPI/JobBoardAPI.Repository/UserRepository.cs:148-159 | removes the row with that id, if any, and keeps every other row |
| UserRepository.DeleteUndoesCreate | Backend/JobBoardAPI/JobBoardAPI.Repository/UserRepository.cs:148-159 | deleting a freshly created user gives back the table it was added to |
| UserRepository.UpdateIdempotent | Backend/JobBoardAPI/JobBoardAPI.Repository/UserRepository.cs:130-146 | applying the same update twice is the same as applying it once |
| JobRepository.Matches | Backend/JobBoardAPI/JobBoardAPI.Repository/JobRepository.cs:30-44 | each filter applies only when set: with both absent every job matches; a matching job equals every set filter exactly; a job equal to both filters matches; a job fails only by differing from a set filter |
| JobRepository.Matching | Backend/JobBoardAPI/JobBoardAPI.Repository/JobRepository.cs:25-44 | the filtered selection contains only stored jobs |
| JobRepository.GetAll | Backend/JobBoardAPI/JobBoardAPI.Repository/JobRepository.cs:19-88 | the total counts every job passing the exact-match filters, whatever the page; the items are the requested window of those jobs, newest `posted_at` first |
| JobRepository.AbsentFiltersSelectAll | Backend/JobBoardAPI/JobBoardAPI.Repository/JobRepository.cs:30-44 | a null and an empty filter are both ignored: with neither filter set, every job is selected |
| JobRepository.FilterNarrows | Backend/JobBoardAPI/JobBoardAPI.Repository/JobRepository.cs:30-44 | adding a filter can only shrink the selection |
| JobRepository.FindById | Backend/JobBoardAPI/JobBoardAPI.Repository/JobRepository.cs:90-119 | a job is found exactly when the id is stored, and it is the stored row |
| JobRepository.ByEmployer | Backend/JobBoardAPI/JobBoardAPI.Repository/JobRepository.cs:121-151 | a stored job is listed exactly when its employer id matches, and every listed job is a stored job of that employer |
| JobRepository.Stamped | Backend/JobBoardAPI/JobBoardAPI.Repository/JobRepository.cs:160-169 | a created job gets the fresh id; `posted_at` is the clock only when the given one is the default; every other column is kept |
| JobRepository.Create | Backend/JobBoardAPI/JobBoardAPI.Repository/JobRepository.cs:153-173 | exactly one row is added, under the fresh id, and every other row is kept |
| JobRepository.Update | Backend/JobBoardAPI/JobBoardAPI.Repository/JobRepository.cs:175-194 | reports true exactly when the row exists; overwrites every column except id and `posted_at`; leaves all other rows and, when absent, the whole table |
| JobRepository.Delete | Backend/JobBoardAPI/JobBoardAPI.Repository/JobRepository.cs:196-207 | removes only the row with that id; an absent id changes nothing |
| JobRepository.DeleteUndoesCreate | Backend/JobBoardAPI/JobBoardAPI.Repository/JobRepository.cs:153-207 | deleting a freshly created job gives back the table it was added to |
| JobRepository.CreatedJobIsVisible | Backend/JobBoardAPI/JobBoardAPI.Repository/JobRepository.cs:121-173 | a created job is found by id and listed under its employer |
| ApplicationRepository.GetAll | Backend/JobBoardAPI/JobBoardAPI.Repository/ApplicationRepository.cs:19-70 | the total counts every application; the items are the requested window, newest `applied_at` first |
| ApplicationRepository.FindById | Backend/JobBoardAPI/JobBoardAPI.Repository/ApplicationRepository.cs:72-97 | an application is found exactly when the id is stored, and it is the stored row |
| ApplicationRepository.ByJob | Backend/JobBoardAPI/JobBoardAPI.Repository/ApplicationRepository.cs:99-125 | a stored application is listed exactly when its job id matches |
| ApplicationRepository.ByUser | Backend/JobBoardAPI/JobBoardAPI.Repository/ApplicationRepository.cs:127-153 | a stored application is listed exactly when its user id matches |
| ApplicationRepository.Exists | Backend/JobBoardAPI/JobBoardAPI.Repository/ApplicationRepository.cs:155-168 | true exactly when some application has that user id and that job id |
| ApplicationRepository.Stamped | Backend/JobBoardAPI/JobBoardAPI.Repository/ApplicationRepository.cs:177-182 | a created application gets the fresh id; `applied_at` is the clock only when the given one is the default; the other columns are kept |
| ApplicationRepository.Create | Backend/JobBoardAPI/JobBoardAPI.Repository/ApplicationRepository.cs:170-186 | exactly one row is added, under the fresh id, and every other row is kept |
| ApplicationRepository.Update | Backend/JobBoardAPI/JobBoardAPI.Repository/ApplicationRepository.cs:188-203 | reports true exactly when the row exists; overwrites only user id, job id and cover letter; keeps id and `applied_at` |
| ApplicationRepository.Delete | Backend/JobBoardAPI/JobBoardAPI.Repository/ApplicationRepository.cs:205-216 | removes only the row with that id |
| ApplicationRepository.DeleteUndoesCreate | Backend/JobBoardAPI/JobBoardAPI.Repository/ApplicationRepository.cs:170-216 | deleting a freshly created application gives back the table it was added to |
| ApplicationRepository.ListingsAgreeWithExists | Backend/JobBoardAPI/JobBoardAPI.Repository/ApplicationRepository.cs:99-168 | the pair check is true exactly when some application is listed both under the job and under the user |
| UserService.GetAllUsers | Backend/JobBoardAPI/JobBoardAPI.Service/UserService.cs:20-23 | passes the repository listing through: exactly the stored users |
| UserService.GetUserById | Backend/JobBoardAPI/JobBoardAPI.Service/UserService.cs:25-28 | passes the repository lookup through, with no authorization |
| UserService.CheckEntry | Backend/JobBoardAPI/JobBoardAPI.Service/UserService.cs:34-47 | an entry passes exactly when it is admissible; a store conflict is reported only for an entry whose fields are all valid; a name or email conflict names a stored user holding that value |
| UserService.FirstFailure | Backend/JobBoardAPI/JobBoardAPI.Service/UserService.cs:32-48 | the loop succeeds exactly when every entry is admissible against the stored users; otherwise it reports the failure of the first failing entry |
| UserService.Prepared | Backend/JobBoardAPI/JobBoardAPI.Service/UserService.cs:49-50 | each entry leaves the loop with its id, email, full name and role untouched, its password replaced by its hash, and its creation time set to the clock reading of its own iteration |
| UserService.BatchWritten | Backend/JobBoardAPI/JobBoardAPI.Service/UserService.cs:49-52 | after the batch write each entry is stored under its fresh id with its email, name, role, hash and its own clock reading; every other row was there before; rows stay keyed by their id |
| UserService.CreateUsers | Backend/JobBoardAPI/JobBoardAPI.Service/UserService.cs:30-53 | succeeds exactly when every entry is admissible; on failure nothing is written; on success each entry is stored under its fresh id with its email, name, role, hash and its own clock reading, and every earlier user is kept |
| UserService.CreateUsersKeepsUniqueness | Backend/JobBoardAPI/JobBoardAPI.Service/UserService.cs:44-47 | bulk create keeps emails and full names unique when the batch entries are pairwise distinct in both |
| UserService.StoredPairDistinct | Backend/JobBoardAPI/JobBoardAPI.Service/UserService.cs:44-52 | after a successful bulk create of pairwise-distinct entries, any two rows differ in email and in full name |
| UserService.BatchAdmitsSharedEmail | Backend/JobBoardAPI/JobBoardAPI.Service/UserService.cs:44-52 | two entries of one batch sharing an email are both written, breaking email uniqueness |
| UserService.CheckEntryAfter | Backend/JobBoardAPI/JobBoardAPI.Service/UserService.cs:34-47 | corrected check: an entry passes exactly when it is admissible and shares no name or email with the earlier entries |
| UserService.FirstClash | Backend/JobBoardAPI/JobBoardAPI.Service/UserService.cs:32-48 | corrected loop: succeeds exactly when every entry passes the corrected check; otherwise reports the failure of the first entry that does not |
| UserService.FirstClashChecks | Backend/JobBoardAPI/JobBoardAPI.Service/UserService.cs:32-48 | the corrected loop passes exactly when every entry is admissible and no two entries share a name or an email |
| UserService.CreateUsersChecked | Backend/JobBoardAPI/JobBoardAPI.Service/UserService.cs:30-53 | corrected bulk create: succeeds exactly when every entry is admissible and no two entries share a name or email; on success it writes what the as-written bulk create writes |
| UserService.CreateUsersCheckedKeepsUniqueness | Backend/JobBoardAPI/JobBoardAPI.Service/UserService.cs:44-47 | the corrected bulk create keeps emails and full names unique for every batch |
| UserService.UpdateUser | Backend/JobBoardAPI/JobBoardAPI.Service/UserService.cs:55-81 | validation fails exactly on a missing name or email or an unknown role, before the lookup; an unknown id gives `false`; a name conflict happens exactly when the name changes to one a user holds, then an email conflict exactly when the email changes to one a user holds; otherwise it succeeds; a new password is replaced by its hash, and an empty one keeps the stored hash; id and creation time are kept |
| UserService.KeepingOwnNameAndEmailSucceeds | Backend/JobBoardAPI/JobBoardAPI.Service/UserService.cs:69-73 | resubmitting one's own name and email never conflicts, even if another user holds the same values |
| UserService.UpdateUserKeepsUniqueness | Backend/JobBoardAPI/JobBoardAPI.Service/UserService.cs:69-80 | a profile update keeps emails and full names unique |
| UserService.DeleteUser | Backend/JobBoardAPI/JobBoardAPI.Service/UserService.cs:83-86 | deletion always succeeds with no check, removes exactly that user and keeps the other users, jobs and applications |
| UserService.Register | Backend/JobBoardAPI/JobBoardAPI.Service/UserService.cs:88-111 | validation fails exactly on a missing email, password or full name, then on an unknown role; registration is rejected exactly when the email is on record; it succeeds exactly when all these checks pass; on success exactly one user is added, with the returned id, the given email, name and role, the hash and the clock |
| UserService.RegisterKeepsUniqueEmails | Backend/JobBoardAPI/JobBoardAPI.Service/UserService.cs:95-109 | registration keeps emails unique |
| UserService.SecondRegistrationRejected | Backend/JobBoardAPI/JobBoardAPI.Service/UserService.cs:95-97 | once an email is registered, a later registration with it never succeeds, whatever its other fields; when its other fields are valid the refusal is that the email is taken |
| UserService.RegisterIgnoresTakenFullName | Backend/JobBoardAPI/JobBoardAPI.Service/UserService.cs:90-109 | registration never checks full names: in any store, a valid registration with an unused email succeeds even when it takes a stored user's full name, leaving two rows with that name |
| UserService.NewAccount | Backend/JobBoardAPI/JobBoardAPI.Service/UserService.cs:99-107 | the registered row carries the fresh id, the given email, full name and role, the hash of the password and the clock |
| UserService.Login | Backend/JobBoardAPI/JobBoardAPI.Service/UserService.cs:113-120 | a returned user is a stored user with that email whose hash verifies; an unknown email and a failed verification give the same null |
| UserService.LoginWithUniqueEmails | Backend/JobBoardAPI/JobBoardAPI.Service/UserService.cs:113-120 | with unique emails, login returns the holder of the email exactly when the password verifies against its hash |
| UserService.RegisterThenLogin | Backend/JobBoardAPI/JobBoardAPI.Service/UserService.cs:88-120 | in any store, even one where other users share an email, a freshly registered account logs in with a password its hash verifies, and login returns the registered row |
| JobService.GetAllJobs | Backend/JobBoardAPI/JobBoardAPI.Service/JobService.cs:21-24 | passes the filtered, paged listing through with no actor |
| JobService.GetJobById | Backend/JobBoardAPI/JobBoardAPI.Service/JobService.cs:26-29 | passes the lookup through with no actor |
| JobService.GetJobsByEmployerId | Backend/JobBoardAPI/JobBoardAPI.Service/JobService.cs:31-34 | exactly the jobs of that employer, with no actor: every stored job of the employer is listed, and every listed job is a stored job of the employer |
| JobService.CheckJob | Backend/JobBoardAPI/JobBoardAPI.Service/JobService.cs:38-44 | the payload passes exactly when title and description are non-empty and the job type is remote, full-time or part-time; a missing title is reported first |
| JobService.CreateJob | Backend/JobBoardAPI/JobBoardAPI.Service/JobService.cs:36-52 | validation comes first; then it is rejected exactly when the actor is not a stored employer; on success exactly one job is added, owned by the actor whatever the payload said |
| JobService.UpdateJob | Backend/JobBoardAPI/JobBoardAPI.Service/JobService.cs:54-74 | validation, then the employer gate; `false` with the store unchanged exactly when the job is absent or owned by another employer; on success the actor stays owner, id and `posted_at` are kept, the other columns come from the payload |
| JobService.DeleteJob | Backend/JobBoardAPI/JobBoardAPI.Service/JobService.cs:76-87 | rejected when the actor is not an employer, or when the job is absent or not theirs, and then nothing changes; on success exactly that job is removed |
| JobService.UpdateHidesOtherOwnersJobs | Backend/JobBoardAPI/JobBoardAPI.Service/JobService.cs:68-70 | update gives the same reply for another employer's job as for a missing one |
| JobService.DeleteRefusesOtherOwnersJobs | Backend/JobBoardAPI/JobBoardAPI.Service/JobService.cs:82-84 | delete answers another employer's job with an error, and the job is still found afterwards |
| JobService.WritesKeepActorAsOwner | Backend/JobBoardAPI/JobBoardAPI.Service/JobService.cs:50-51 | after a successful create or update, the written job is listed under the actor |
| JobService.CreateThenDeleteRestores | Backend/JobBoardAPI/JobBoardAPI.Service/JobService.cs:36-87 | the owner can delete a job right after creating it, which restores the store |
| JobService.RejectsUnknownJobType | Backend/JobBoardAPI/JobBoardAPI.Service/JobService.cs:42-44 | any job type outside the three accepted ones, null and empty included, is refused by create and by update, and nothing is written |
| ApplicationService.GetAllApplications | Backend/JobBoardAPI/JobBoardAPI.Service/ApplicationService.cs:23-26 | passes the paged listing of all applications through with no actor |
| ApplicationService.GetApplicationById | Backend/JobBoardAPI/JobBoardAPI.Service/ApplicationService.cs:28-31 | passes the lookup through with no actor |
| ApplicationService.ListByJob | Backend/JobBoardAPI/JobBoardAPI.Service/ApplicationService.cs:33-44 | an absent job is reported first; otherwise it is refused exactly when the actor is not the employer who posted the job; on success it returns exactly the applications for that job |
| ApplicationService.ListByUser | Backend/JobBoardAPI/JobBoardAPI.Service/ApplicationService.cs:46-53 | refused exactly when the actor is not a stored candidate; on success it returns exactly the actor's applications |
| ApplicationService.CreateApplication | Backend/JobBoardAPI/JobBoardAPI.Service/ApplicationService.cs:55-70 | checks in order that the actor is a candidate, the job exists and `(actor, job)` has no application, and succeeds exactly when all three pass; on success exactly one application is added, its applicant forced to the actor, and it is the only one for that pair |
| ApplicationService.UpdateApplication | Backend/JobBoardAPI/JobBoardAPI.Service/ApplicationService.cs:72-94 | as written: the candidate gate; `false` with the store unchanged exactly when the application is absent or not the actor's; an absent job is an error; a duplicate is reported exactly when the job or the payload's user id differs from the stored one and the pair (payload user id, job) already has an application; it succeeds exactly when none of these refusals applies; on success the applicant is the actor |
| ApplicationService.UpdateKeepsUniquePairsForOwnPayload | Backend/JobBoardAPI/JobBoardAPI.Service/ApplicationService.cs:86-93 | when the payload names the actor as applicant, update keeps `(user, job)` pairs unique |
| ApplicationService.UpdateAdmitsDuplicatePair | Backend/JobBoardAPI/JobBoardAPI.Service/ApplicationService.cs:86-93 | with a payload naming another user, update moves an application onto a job the actor already applied to, leaving two applications for one pair |
| ApplicationService.UpdateApplicationChecked | Backend/JobBoardAPI/JobBoardAPI.Service/ApplicationService.cs:72-94 | corrected update: the same candidate gate, ownership and job checks, and a duplicate reported exactly when the job changes and `(actor, new job)` already has an application; it succeeds exactly when none of these refusals applies, so every update that moves to a free pair or keeps its job is accepted; it keeps `(user, job)` pairs unique for every payload |
| ApplicationService.CheckedAgreesOnOwnPayload | Backend/JobBoardAPI/JobBoardAPI.Service/ApplicationService.cs:86-93 | the corrected and the as-written update agree whenever the payload names the actor |
| ApplicationService.DeleteApplication | Backend/JobBoardAPI/JobBoardAPI.Service/ApplicationService.cs:96-107 | refused when the actor is not a candidate, or when the application is absent or not theirs, and then nothing changes; on success exactly that application is removed |
| ApplicationService.CreateAndDeleteKeepUniquePairs | Backend/JobBoardAPI/JobBoardAPI.Service/ApplicationService.cs:65-70 | create and delete keep `(user, job)` pairs unique |
| ApplicationService.SecondApplicationRefused | Backend/JobBoardAPI/JobBoardAPI.Service/ApplicationService.cs:55-70 | after a candidate applies, applying to the same job again is refused, and the new application appears in the candidate's own listing |
| ApplicationService.CandidatesCannotListByJob | Backend/JobBoardAPI/JobBoardAPI.Service/ApplicationService.cs:39-41 | a candidate is never shown the applications of a job |

## Left out

- The HTTP controllers, DTO mapping, dependency-injection wiring and the repository and service interfaces are not part of this model. Two controller guards are therefore not modelled:
  - the bulk-create endpoint rejects a null or empty list, which `UserService.CreateUsers` accepts and answers with no write;
  - the login endpoint rejects an empty email or password before `UserService.Login` is called.
- Npgsql connections, commands, readers and `async`: each SQL statement is replaced by its meaning over a map.
- BCrypt hashing and verification are inputs, as described above. No property depends on what the hash of a password is.
- `DateTime.UtcNow` and `Guid.NewGuid()` are inputs. Fresh ids are assumed absent from the store, which a random `Guid` makes overwhelmingly likely but does not guarantee.
- Concurrency: operations are modelled one at a time. The race between an existence check and the following write is not modelled.
- `PagedResult` and its page-count formula: that class is not part of this model. `PagedResult` is mirrored as a plain record.
- The order among rows with equal `posted_at` or `applied_at` is left open. The listing contracts fix the order only up to such ties.
- Paging.Offset: computes `(page - 1) * pageSize` on unbounded integers and does not model the 32-bit overflow of the C# product.
- UserRepository.FindByEmail: when several rows share an email the database returns one of them. The model returns the row with the least id, and its contract promises only "some row with that email".
- UserRepository.FindByEmail: a null email is passed to the database as a null parameter. The model treats it as matching no row and does not model a driver error.
- UserService.CreateUsers: the clock is read once per entry (`nows`); the insert's own clock (`now`) matters only for an entry whose reading is `default(DateTime)`, which the real clock never returns.
- Every bulk-create entry is validated before the single repository call (UserService.cs:32-52), so a validation failure writes nothing. The repository inserts the rows one by one without a transaction (UserRepository.cs:114-124); a database failure partway through, which would leave the earlier rows stored, is not modelled.
- The listings `UserRepository.All`, `JobRepository.ByEmployer`, `ApplicationRepository.ByJob` and `ApplicationRepository.ByUser` return sets, not the source's `List<T>` in reader order: no property here depends on order or multiplicity, and the rows are distinct by id.
- UserService.UpdateUser: when the stored row vanishes between the lookup and the write the repository answers `false`. The contract states only the sequential behaviour.
- The database schema is not part of the source. `Delete` removes the one row; foreign-key cascades or refusals are not modelled, so the frame clauses of `UserService.DeleteUser` and `JobService.DeleteJob` that keep the other tables rest on this assumption.

## Findings

| source | as written | input that shows it | evidently intended | confidence | as-written member | corrected member |
|---|---|---|---|---|---|---|
| Backend/JobBoardAPI/JobBoardAPI.Service/ApplicationService.cs:86-93 | the duplicate check on update looks up `(payload UserId, JobId)`, but the row is then written with `UserId` = actor | candidate 1 holds application 10 for job 100 and application 11 for job 101, and updates 10 with payload `UserId` 2 and `JobId` 101: the check looks at `(2, 101)`, finds nothing, and the store ends with two applications for `(1, 101)` | check the pair that will be stored, `(actor, JobId)`, whenever the job changes | high; not executed | ApplicationService.UpdateAdmitsDuplicatePair | ApplicationService.UpdateApplicationChecked |
| Backend/JobBoardAPI/JobBoardAPI.Service/UserService.cs:32-52 | each batch entry is checked for name and email only against the stored users, never against the other entries of the batch | an empty store and a batch of two entries with the same email and different names: both pass and both are written | refuse a batch entry whose name or email an earlier entry already uses, as the loop's own per-entry check (UserService.cs:44-47) would if the entries were created in separate one-entry calls | medium; not executed | UserService.BatchAdmitsSharedEmail | UserService.CreateUsersChecked |

=== FILE: application_repository.dfy ===
/**
 The `applications` table as a map from id to row, with the meaning of each
 query the application repository issues.
 */
module ApplicationRepository {
  import opened Base
  import opened Records
  import opened Paging

  /** The sort key of the application listing. */
  function AppliedAt(a: Application): Time
  {
    a.appliedAt
  }

  /** `GetAllApplicationsAsync`: coerces `page` and `pageSize`, counts every
      application, and returns the requested page, newest first. */
  method GetAll(applications: map<Id, Application>, page: int, pageSize: int)
    returns (r: PagedResult<Application>)
    ensures r.page == CoercePage(page) && r.pageSize == CoercePageSize(pageSize)
    ensures r.totalItems == |applications|
    ensures exists o :: IsListing(applications, applications.Keys, AppliedAt, o)
                     && r.items == Window(applications, o, Offset(r.page, r.pageSize), r.pageSize)
  {
    r := Page(applications, applications.Keys, AppliedAt, page, pageSize);
  }

  /** `GetApplicationByIdAsync`: the row with that id, or null. */
  function FindById(applications: map<Id, Application>, id: Id): (r: Option<Application>)
    ensures r.Some? <==> id in applications
    ensures r.Some? ==> r.value == applications[id]
  {
    if id in applications then Some(applications[id]) else None
  }

  /** `GetApplicationsByJobIdAsync`: the rows whose `job_id` is `jobId`. */
  function ByJob(applications: map<Id, Application>, jobId: Id): (r: set<Application>)
    ensures forall id | id in applications :: applications[id] in r <==> applications[id].jobId == jobId
    ensures forall a | a in r :: a.jobId == jobId && exists id :: id in applications && applications[id] == a
  {
    set id | id in applications && applications[id].jobId == jobId :: applications[id]
  }

  /** `GetApplicationsByUserIdAsync`: the rows whose `user_id` is `userId`. */
  function ByUser(applications: map<Id, Application>, userId: Id): (r: set<Application>)
    ensures forall id | id in applications :: applications[id] in r <==> applications[id].userId == userId
    ensures forall a | a in r :: a.userId == userId && exists id :: id in applications && applications[id] == a
  {
    set id | id in applications && applications[id].userId == userId :: applications[id]
  }

  /** The ids of the rows for the pair `(userId, jobId)`. */
  function ForPair(applications: map<Id, Application>, userId: Id, jobId: Id): set<Id>
  {
    set id | id in applications && applications[id].userId == userId && applications[id].jobId == jobId
  }

  /** `ApplicationExistsAsync`: whether `COUNT(1)` of the rows for the pair
      `(userId, jobId)` is positive. */
  function Exists(applications: map<Id, Application>, userId: Id, jobId: Id): (r: bool)
    ensures r <==> exists id :: id in applications && applications[id].userId == userId && applications[id].jobId == jobId
  {
    var matching := ForPair(applications, userId, jobId);
    CountPositive(matching);
    assert (exists id :: id in matching) <==>
           exists id :: id in applications && applications[id].userId == userId && applications[id].jobId == jobId by {
      forall id | id in applications && applications[id].userId == userId && applications[id].jobId == jobId
        ensures id in matching
      { }
    }
    |matching| > 0
  }

  /** The row `CreateApplicationAsync` writes: a fresh id, and `applied_at`
      stamped with the clock only when it is `default(DateTime)`. */
  function Stamped(a: Application, id: Id, now: Time): (r: Application)
    ensures r.id == id
    ensures r.appliedAt == (if a.appliedAt == DefaultTime then now else a.appliedAt)
    ensures r.userId == a.userId && r.jobId == a.jobId && r.coverLetter == a.coverLetter
  {
    a.(id := id, appliedAt := if a.appliedAt == DefaultTime then now else a.appliedAt)
  }

  /** `CreateApplicationAsync`: inserts the application under a fresh id. */
  function Create(applications: map<Id, Application>, a: Application, newId: Id, now: Time): (r: map<Id, Application>)
    requires newId !in applications
    ensures r.Keys == applications.Keys + {newId}
    ensures r[newId] == Stamped(a, newId, now)
    ensures forall k | k in applications :: r[k] == applications[k]
  {
    applications[newId := Stamped(a, newId, now)]
  }

  /** `UpdateApplicationAsync`: overwrites `user_id`, `job_id` and
      `cover_letter` of the row with that id, and reports whether it existed. */
  function Update(applications: map<Id, Application>, id: Id, a: Application): (r: (bool, map<Id, Application>))
    ensures r.0 <==> id in applications
    ensures !r.0 ==> r.1 == applications
    ensures r.1.Keys == applications.Keys
    ensures forall k | k in applications && k != id :: r.1[k] == applications[k]
    ensures r.0 ==> && r.1[id].id == applications[id].id
                    && r.1[id].appliedAt == applications[id].appliedAt
                    && r.1[id].userId == a.userId
                    && r.1[id].jobId == a.jobId
                    && r.1[id].coverLetter == a.coverLetter
  {
    if id in applications then
      var row := applications[id];
      (true, applications[id := row.(userId := a.userId, jobId := a.jobId, coverLetter := a.coverLetter)])
    else (false, applications)
  }

  /** `DeleteApplicationAsync`: removes the row with that id, if any. */
  function Delete(applications: map<Id, Application>, id: Id): (r: map<Id, Application>)
    ensures r.Keys == applications.Keys - {id}
    ensures forall k | k in r :: r[k] == applications[k]
  {
    applications - {id}
  }

  /** Deleting a freshly created application gives back the table it was
      added to. */
  lemma DeleteUndoesCreate(applications: map<Id, Application>, a: Application, newId: Id, now: Time)
    requires newId !in applications
    ensures Delete(Create(applications, a, newId, now), newId) == applications
  {
    assert Delete(Create(applications, a, newId, now), newId).Keys == applications.Keys;
  }

  /** The pair check agrees with the two listings: an application exists for
      `(userId, jobId)` exactly when one row is listed both under the job and
      under the user. */
  lemma ListingsAgreeWithExists(applications: map<Id, Application>, userId: Id, jobId: Id)
    ensures Exists(applications, userId, jobId) <==>
      exists a :: a in ByJob(applications, jobId) && a in ByUser(applications, userId)
  {
    if Exists(applications, userId, jobId) {
      var id :| id in applications && applications[id].userId == userId && applications[id].jobId == jobId;
      assert applications[id] in ByJob(applications, jobId) && applications[id] in ByUser(applications, userId);
    }
  }
}

=== FILE: application_service.dfy ===
/**
 The application rules: candidates own applications, the employer who posted a
 job may list its applications, and a candidate applies to a job at most once.
 A fresh `Guid` and the clock are inputs of `CreateApplication`.
 */
module ApplicationService {
  import opened Base
  import opened Records
  import opened Paging
  import UserRepository
  import JobRepository
  import ApplicationRepository

  /** The two reads the service passes through unchanged. */
  method GetAllApplications(s: Store, page: int, pageSize: int) returns (r: PagedResult<Application>)
    ensures r.page == CoercePage(page) && r.pageSize == CoercePageSize(pageSize)
    ensures r.totalItems == |s.applications|
    ensures exists o :: IsListing(s.applications, s.applications.Keys, ApplicationRepository.AppliedAt, o)
                     && r.items == Window(s.applications, o, Offset(r.page, r.pageSize), r.pageSize)
  {
    r := ApplicationRepository.GetAll(s.applications, page, pageSize);
  }

  function GetApplicationById(s: Store, id: Id): (r: Option<Application>)
    ensures r.Some? <==> id in s.applications
    ensures r.Some? ==> r.value == s.applications[id]
  {
    ApplicationRepository.FindById(s.applications, id)
  }

  /** The actor's row exists, is an employer, and posted job `jobId`. */
  predicate PostedBy(s: Store, jobId: Id, actor: Id)
    requires jobId in s.jobs
  {
    ActsAs(s.users, actor, Employer) && s.jobs[jobId].employerId == actor
  }

  /** `GetApplicationsByJobIdAsync`: the job must exist, and only the employer
      who posted it sees its applications. */
  function ListByJob(s: Store, jobId: Id, actor: Id): (r: Outcome<set<Application>>)
    ensures r == OperationError(JobNotFound) <==> jobId !in s.jobs
    ensures r == OperationError(NotOwner) <==> jobId in s.jobs && !PostedBy(s, jobId, actor)
    ensures r.Ok? <==> jobId in s.jobs && PostedBy(s, jobId, actor)
    ensures r.Ok? ==> forall id | id in s.applications ::
      s.applications[id] in r.value <==> s.applications[id].jobId == jobId
    ensures r.Ok? ==> forall a | a in r.value :: a.jobId == jobId && a in s.applications.Values
  {
    var job := JobRepository.FindById(s.jobs, jobId);
    if job.None? then OperationError(JobNotFound)
    else
      var user := UserRepository.FindById(s.users, actor);
      if user.None? || (user.value.role != Some(Employer) || job.value.employerId != actor) then OperationError(NotOwner)
      else Ok(ApplicationRepository.ByJob(s.applications, jobId))
  }

  /** `GetApplicationsByUserIdAsync`: only a candidate, and only their own. */
  function ListByUser(s: Store, actor: Id): (r: Outcome<set<Application>>)
    ensures r == OperationError(WrongRole) <==> !ActsAs(s.users, actor, Candidate)
    ensures r.Ok? <==> ActsAs(s.users, actor, Candidate)
    ensures r.Ok? ==> forall id | id in s.applications ::
      s.applications[id] in r.value <==> s.applications[id].userId == actor
    ensures r.Ok? ==> forall a | a in r.value :: a.userId == actor && a in s.applications.Values
  {
    var user := UserRepository.FindById(s.users, actor);
    if user.None? || user.value.role != Some(Candidate) then OperationError(WrongRole)
    else Ok(ApplicationRepository.ByUser(s.applications, actor))
  }

  /** The number of applications for the pair `(userId, jobId)`. */
  function PairCount(applications: map<Id, Application>, userId: Id, jobId: Id): nat
  {
    |ApplicationRepository.ForPair(applications, userId, jobId)|
  }

  /** `CreateApplicationAsync`: a candidate, an existing job, no earlier
      application for `(actor, jobId)`; the stored applicant is the actor,
      whatever the payload said. */
  function CreateApplication(s: Store, a: Application, actor: Id, newId: Id, now: Time): (r: Reply<()>)
    requires newId !in s.applications
    ensures r.outcome == OperationError(WrongRole) <==> !ActsAs(s.users, actor, Candidate)
    ensures r.outcome == OperationError(JobNotFound) <==> ActsAs(s.users, actor, Candidate) && a.jobId !in s.jobs
    ensures r.outcome == OperationError(AlreadyApplied) <==>
      && ActsAs(s.users, actor, Candidate) && a.jobId in s.jobs
      && exists k :: k in s.applications && s.applications[k].userId == actor && s.applications[k].jobId == a.jobId
    ensures r.outcome.Ok? <==>
      && ActsAs(s.users, actor, Candidate) && a.jobId in s.jobs
      && !exists k :: k in s.applications && s.applications[k].userId == actor && s.applications[k].jobId == a.jobId
    ensures r.outcome.Ok? || r.outcome.OperationError?
    ensures !r.outcome.Ok? ==> r.store == s
    ensures r.store.users == s.users && r.store.jobs == s.jobs
    ensures r.outcome.Ok? ==>
      && r.store.applications.Keys == s.applications.Keys + {newId}
      && (forall k | k in s.applications :: r.store.applications[k] == s.applications[k])
      && r.store.applications[newId] == ApplicationRepository.Stamped(a.(userId := actor), newId, now)
      && PairCount(r.store.applications, actor, a.jobId) == 1
    ensures ApplicationsKeyed(s.applications) ==> ApplicationsKeyed(r.store.applications)
  {
    var user := UserRepository.FindById(s.users, actor);
    if user.None? || user.value.role != Some(Candidate) then Reply(OperationError(WrongRole), s)
    else if JobRepository.FindById(s.jobs, a.jobId).None? then Reply(OperationError(JobNotFound), s)
    else if ApplicationRepository.Exists(s.applications, actor, a.jobId) then Reply(OperationError(AlreadyApplied), s)
    else
      var applications := ApplicationRepository.Create(s.applications, a.(userId := actor), newId, now);
      assert ApplicationRepository.ForPair(applications, actor, a.jobId) == {newId};
      Reply(Ok(()), s.(applications := applications))
  }

  /** `UpdateApplicationAsync` as written: the duplicate check looks at the
      payload's `UserId`, and only afterwards is `UserId` forced to the actor. */
  function UpdateApplication(s: Store, id: Id, a: Application, actor: Id): (r: Reply<()>)
    ensures r.outcome == OperationError(WrongRole) <==> !ActsAs(s.users, actor, Candidate)
    ensures r.outcome == NotUpdated <==>
      ActsAs(s.users, actor, Candidate) && !(id in s.applications && s.applications[id].userId == actor)
    ensures r.outcome == OperationError(JobNotFound) <==>
      ActsAs(s.users, actor, Candidate) && id in s.applications && s.applications[id].userId == actor && a.jobId !in s.jobs
    ensures r.outcome == OperationError(AlreadyApplied) <==>
      && ActsAs(s.users, actor, Candidate) && id in s.applications && s.applications[id].userId == actor
      && a.jobId in s.jobs && (s.applications[id].jobId != a.jobId || a.userId != actor)
      && exists k :: k in s.applications && s.applications[k].userId == a.userId && s.applications[k].jobId == a.jobId
    ensures r.outcome.Ok? <==>
      && ActsAs(s.users, actor, Candidate) && id in s.applications && s.applications[id].userId == actor
      && a.jobId in s.jobs
      && !((s.applications[id].jobId != a.jobId || a.userId != actor)
           && exists k :: k in s.applications && s.applications[k].userId == a.userId && s.applications[k].jobId == a.jobId)
    ensures r.outcome.Ok? || r.outcome.OperationError? || r.outcome == NotUpdated
    ensures !r.outcome.Ok? ==> r.store == s
    ensures r.store.users == s.users && r.store.jobs == s.jobs
    ensures r.outcome.Ok? ==>
      && ActsAs(s.users, actor, Candidate) && id in s.applications && a.jobId in s.jobs
      && r.store.applications.Keys == s.applications.Keys
      && (forall k | k in s.applications && k != id :: r.store.applications[k] == s.applications[k])
      && r.store.applications[id].id == s.applications[id].id
      && r.store.applications[id].appliedAt == s.applications[id].appliedAt
      && r.store.applications[id].userId == actor
      && r.store.applications[id].jobId == a.jobId
      && r.store.applications[id].coverLetter == a.coverLetter
    ensures ApplicationsKeyed(s.applications) ==> ApplicationsKeyed(r.store.applications)
  {
    var user := UserRepository.FindById(s.users, actor);
    if user.None? || user.value.role != Some(Candidate) then Reply(OperationError(WrongRole), s)
    else
      var existing := ApplicationRepository.FindById(s.applications, id);
      if existing.None? || existing.value.userId != actor then Reply(NotUpdated, s)
      else if JobRepository.FindById(s.jobs, a.jobId).None? then Reply(OperationError(JobNotFound), s)
      else if (existing.value.jobId != a.jobId || existing.value.userId != a.userId)
              && ApplicationRepository.Exists(s.applications, a.userId, a.jobId) then
        Reply(OperationError(AlreadyApplied), s)
      else
        var (found, applications) := ApplicationRepository.Update(s.applications, id, a.(userId := actor));
        Reply(if found then Ok(()) else NotUpdated, s.(applications := applications))
  }

  /** When the payload names the actor as applicant, the update keeps every
      `(user, job)` pair unique. */
  lemma UpdateKeepsUniquePairsForOwnPayload(s: Store, id: Id, a: Application, actor: Id)
    requires UniquePairs(s.applications)
    requires a.userId == actor
    ensures UniquePairs(UpdateApplication(s, id, a, actor).store.applications)
  {
    var r := UpdateApplication(s, id, a, actor);
    if r.outcome.Ok? {
      var apps := r.store.applications;
      var existing := s.applications[id];
      if existing.jobId != a.jobId {
        assert !ApplicationRepository.Exists(s.applications, actor, a.jobId);
      }
      forall x, y | x in apps && y in apps && x != y
        ensures apps[x].userId != apps[y].userId || apps[x].jobId != apps[y].jobId
      {
        if x == id {
          assert apps[y] == s.applications[y];
        } else if y == id {
          assert apps[x] == s.applications[x];
        }
      }
    }
  }

  /** With a payload naming another user, the as-written update can create a
      second application for the same `(user, job)` pair: candidate 1 holds
      applications 10 (job 100) and 11 (job 101), and moves 10 to job 101 with
      payload `UserId` 2. */
  lemma UpdateAdmitsDuplicatePair()
    ensures var s := Store(
              map[1 := User(1, Some("c@x.com"), Some("h"), Some(Candidate), Some("C"), 1)],
              map[100 := Job(100, Some("T"), Some("D"), None, Some("remote"), None, 1, None, 9),
                  101 := Job(101, Some("T"), Some("D"), None, Some("remote"), None, 1, None, 9)],
              map[10 := Application(10, 1, 100, None, 1), 11 := Application(11, 1, 101, None, 1)]);
            var r := UpdateApplication(s, 10, Application(10, 2, 101, None, 1), 1);
            && UniquePairs(s.applications)
            && r.outcome.Ok?
            && !UniquePairs(r.store.applications)
  {
    var s := Store(
      map[1 := User(1, Some("c@x.com"), Some("h"), Some(Candidate), Some("C"), 1)],
      map[100 := Job(100, Some("T"), Some("D"), None, Some("remote"), None, 1, None, 9),
          101 := Job(101, Some("T"), Some("D"), None, Some("remote"), None, 1, None, 9)],
      map[10 := Application(10, 1, 100, None, 1), 11 := Application(11, 1, 101, None, 1)]);
    assert !ApplicationRepository.Exists(s.applications, 2, 101);
    var r := UpdateApplication(s, 10, Application(10, 2, 101, None, 1), 1);
    assert r.store.applications[10].userId == 1 && r.store.applications[10].jobId == 101;
    assert r.store.applications[11] == s.applications[11];
  }

  /** The update as evidently intended: the pair checked is the one that will
      be stored, `(actor, jobId)`, and only when the job changes. */
  function UpdateApplicationChecked(s: Store, id: Id, a: Application, actor: Id): (r: Reply<()>)
    ensures r.outcome == OperationError(WrongRole) <==> !ActsAs(s.users, actor, Candidate)
    ensures r.outcome == NotUpdated <==>
      ActsAs(s.users, actor, Candidate) && !(id in s.applications && s.applications[id].userId == actor)
    ensures r.outcome == OperationError(JobNotFound) <==>
      ActsAs(s.users, actor, Candidate) && id in s.applications && s.applications[id].userId == actor && a.jobId !in s.jobs
    ensures r.outcome == OperationError(AlreadyApplied) <==>
      && ActsAs(s.users, actor, Candidate) && id in s.applications && s.applications[id].userId == actor
      && a.jobId in s.jobs && s.applications[id].jobId != a.jobId
      && exists k :: k in s.applications && s.applications[k].userId == actor && s.applications[k].jobId == a.jobId
    ensures r.outcome.Ok? <==>
      && ActsAs(s.users, actor, Candidate) && id in s.applications && s.applications[id].userId == actor
      && a.jobId in s.jobs
      && !(s.applications[id].jobId != a.jobId
           && exists k :: k in s.applications && s.applications[k].userId == actor && s.applications[k].jobId == a.jobId)
    ensures r.outcome.Ok? || r.outcome.OperationError? || r.outcome == NotUpdated
    ensures !r.outcome.Ok? ==> r.store == s
    ensures r.store.users == s.users && r.store.jobs == s.jobs
    ensures r.outcome.Ok? ==>
      && r.store.applications.Keys == s.applications.Keys
      && (forall k | k in s.applications && k != id :: r.store.applications[k] == s.applications[k])
      && r.store.applications[id].userId == actor
      && r.store.applications[id].jobId == a.jobId
      && r.store.applications[id].coverLetter == a.coverLetter
      && r.store.applications[id].appliedAt == s.applications[id].appliedAt
    ensures UniquePairs(s.applications) ==> UniquePairs(r.store.applications)
  {
    var user := UserRepository.FindById(s.users, actor);
    if user.None? || user.value.role != Some(Candidate) then Reply(OperationError(WrongRole), s)
    else
      var existing := ApplicationRepository.FindById(s.applications, id);
      if existing.None? || existing.value.userId != actor then Reply(NotUpdated, s)
      else if JobRepository.FindById(s.jobs, a.jobId).None? then Reply(OperationError(JobNotFound), s)
      else if existing.value.jobId != a.jobId && ApplicationRepository.Exists(s.applications, actor, a.jobId) then
        Reply(OperationError(AlreadyApplied), s)
      else
        var (found, applications) := ApplicationRepository.Update(s.applications, id, a.(userId := actor));
        assert UniquePairs(s.applications) ==> UniquePairs(applications) by {
          if UniquePairs(s.applications) {
            forall x, y | x in applications && y in applications && x != y
              ensures applications[x].userId != applications[y].userId || applications[x].jobId != applications[y].jobId
            {
              if x == id {
                assert applications[y] == s.applications[y];
              } else if y == id {
                assert applications[x] == s.applications[x];
              }
            }
          }
        }
        Reply(if found then Ok(()) else NotUpdated, s.(applications := applications))
  }

  /** The corrected update agrees with the as-written one whenever the payload
      names the actor as applicant. */
  lemma CheckedAgreesOnOwnPayload(s: Store, id: Id, a: Application, actor: Id)
    requires a.userId == actor
    ensures UpdateApplicationChecked(s, id, a, actor) == UpdateApplication(s, id, a, actor)
  {
  }

  /** `DeleteApplicationAsync`: only a candidate who owns the application;
      otherwise an error rather than `false`. */
  function DeleteApplication(s: Store, id: Id, actor: Id): (r: Reply<()>)
    ensures r.outcome == OperationError(WrongRole) <==> !ActsAs(s.users, actor, Candidate)
    ensures r.outcome == OperationError(NotOwner) <==>
      ActsAs(s.users, actor, Candidate) && !(id in s.applications && s.applications[id].userId == actor)
    ensures r.outcome.Ok? <==>
      ActsAs(s.users, actor, Candidate) && id in s.applications && s.applications[id].userId == actor
    ensures r.outcome.Ok? || r.outcome.OperationError?
    ensures !r.outcome.Ok? ==> r.store == s
    ensures r.store.users == s.users && r.store.jobs == s.jobs
    ensures r.outcome.Ok? ==>
      && r.store.applications.Keys == s.applications.Keys - {id}
      && forall k | k in r.store.applications :: r.store.applications[k] == s.applications[k]
    ensures ApplicationsKeyed(s.applications) ==> ApplicationsKeyed(r.store.applications)
  {
    var user := UserRepository.FindById(s.users, actor);
    if user.None? || user.value.role != Some(Candidate) then Reply(OperationError(WrongRole), s)
    else
      var application := ApplicationRepository.FindById(s.applications, id);
      if application.None? || application.value.userId != actor then Reply(OperationError(NotOwner), s)
      else Reply(Ok(()), s.(applications := ApplicationRepository.Delete(s.applications, id)))
  }

  /** Creating and deleting applications keep every `(user, job)` pair unique. */
  lemma CreateAndDeleteKeepUniquePairs(s: Store, a: Application, actor: Id, newId: Id, now: Time, id: Id)
    requires newId !in s.applications
    requires UniquePairs(s.applications)
    ensures UniquePairs(CreateApplication(s, a, actor, newId, now).store.applications)
    ensures UniquePairs(DeleteApplication(s, id, actor).store.applications)
  {
    var r := CreateApplication(s, a, actor, newId, now);
    if r.outcome.Ok? {
      var apps := r.store.applications;
      assert !ApplicationRepository.Exists(s.applications, actor, a.jobId);
      forall x, y | x in apps && y in apps && x != y
        ensures apps[x].userId != apps[y].userId || apps[x].jobId != apps[y].jobId
      {
        if x == newId {
          assert apps[y] == s.applications[y];
        } else if y == newId {
          assert apps[x] == s.applications[x];
        }
      }
    }
  }

  /** After a candidate applies, applying again to the same job is refused,
      and the application shows in the candidate's own listing. */
  lemma SecondApplicationRefused(s: Store, a: Application, a2: Application, actor: Id,
                                                    newId: Id, newId2: Id, now: Time)
    requires newId !in s.applications
    requires CreateApplication(s, a, actor, newId, now).outcome.Ok?
    requires newId2 !in CreateApplication(s, a, actor, newId, now).store.applications
    requires a2.jobId == a.jobId
    ensures CreateApplication(CreateApplication(s, a, actor, newId, now).store, a2, actor, newId2, now).outcome
            == OperationError(AlreadyApplied)
    ensures var listed := ListByUser(CreateApplication(s, a, actor, newId, now).store, actor);
            listed.Ok? && ApplicationRepository.Stamped(a.(userId := actor), newId, now) in listed.value
  {
    var s1 := CreateApplication(s, a, actor, newId, now).store;
    assert newId in s1.applications;
  }

  /** A candidate is refused the listing of a job's applications, whatever
      their relation to the job. */
  lemma CandidatesCannotListByJob(s: Store, jobId: Id, actor: Id)
    requires ActsAs(s.users, actor, Candidate)
    ensures !ListByJob(s, jobId, actor).Ok?
  {
    if jobId in s.jobs {
      assert !PostedBy(s, jobId, actor);
    }
  }
}

=== FILE: base.dfy ===
/**
 Primitive vocabulary shared by every module of the job board model: nullable
 references, identifiers, timestamps and the `string.IsNullOrEmpty` test the
 services and repositories use on every text field.
 */
module Base {

  /** A C# reference that may be null. */
  datatype Option<+T> = None | Some(value: T)

  /** A `Guid`. Only equality between identifiers matters to the model. */
  type Id = nat

  /** A `DateTime`, as a tick count. */
  type Time = nat

  /** `default(DateTime)`, the value the repositories replace with the clock. */
  const DefaultTime: Time := 0

  /** `string.IsNullOrEmpty`: null, or the empty string. */
  predicate IsNullOrEmpty(s: Option<string>)
  {
    s.None? || s.value == ""
  }

  /** A finite set is non-empty exactly when its size is positive; this is
      what a `SELECT COUNT(1) … > 0` existence query relies on. */
  lemma CountPositive<T>(s: set<T>)
    ensures |s| > 0 <==> exists x :: x in s
  {
    if |s| > 0 {
      assert s != {};
      var x :| x in s;
    }
  }

  /** The least element of a non-empty set of identifiers. */
  lemma {:induction false} Least(s: set<Id>) returns (m: Id)
    requires s != {}
    ensures m in s && forall x | x in s :: m <= x
    decreases |s|
  {
    var y :| y in s;
    var rest := s - {y};
    if rest == {} {
      m := y;
      forall x | x in s ensures m <= x {
        assert x !in rest;
      }
    } else {
      var n := Least(rest);
      m := if y < n then y else n;
      forall x | x in s ensures m <= x {
        if x != y {
          assert x in rest;
        }
      }
    }
  }

  /** Every non-empty set of identifiers has a least element. */
  lemma LeastExists(s: set<Id>)
    requires s != {}
    ensures exists m :: m in s && forall x | x in s :: m <= x
  {
    var m := Least(s);
  }
}

=== FILE: job_repository.dfy ===
/**
 The `jobs` table as a map from id to row, with the meaning of each query the
 job repository issues. None of these reads takes an actor: listing jobs needs
 no authorization.
 */
module JobRepository {
  import opened Base
  import opened Records
  import opened Paging

  /** The sort key of the job listing. */
  function PostedAt(job: Job): Time
  {
    job.postedAt
  }

  /** The `WHERE` clause of the job listing: each filter is an exact match and
      applies only when its argument is neither null nor empty. */
  function Matches(job: Job, location: Option<string>, jobType: Option<string>): (b: bool)
    ensures IsNullOrEmpty(location) && IsNullOrEmpty(jobType) ==> b
    ensures job.location == location && job.jobType == jobType ==> b
    ensures b && !IsNullOrEmpty(location) ==> job.location == location
    ensures b && !IsNullOrEmpty(jobType) ==> job.jobType == jobType
    ensures !b ==> (!IsNullOrEmpty(location) && job.location != location) || (!IsNullOrEmpty(jobType) && job.jobType != jobType)
  {
    && (IsNullOrEmpty(location) || job.location == location)
    && (IsNullOrEmpty(jobType) || job.jobType == jobType)
  }

  /** The ids of the rows the listing selects. */
  function Matching(jobs: map<Id, Job>, location: Option<string>, jobType: Option<string>): (r: set<Id>)
    ensures r <= jobs.Keys
  {
    set id | id in jobs && Matches(jobs[id], location, jobType)
  }

  /** `GetAllJobsAsync`: coerces `page` and `pageSize`, counts every matching
      job, and returns the requested page of the matching jobs, newest first. */
  method GetAll(jobs: map<Id, Job>, location: Option<string>, jobType: Option<string>, page: int, pageSize: int)
    returns (r: PagedResult<Job>)
    ensures r.page == CoercePage(page) && r.pageSize == CoercePageSize(pageSize)
    ensures r.totalItems == |Matching(jobs, location, jobType)|
    ensures exists o :: IsListing(jobs, Matching(jobs, location, jobType), PostedAt, o)
                     && r.items == Window(jobs, o, Offset(r.page, r.pageSize), r.pageSize)
  {
    r := Page(jobs, Matching(jobs, location, jobType), PostedAt, page, pageSize);
  }

  /** A null filter and an empty filter select the same jobs; with neither
      filter set, every job is selected. */
  lemma AbsentFiltersSelectAll(jobs: map<Id, Job>, location: Option<string>, jobType: Option<string>)
    requires IsNullOrEmpty(location) && IsNullOrEmpty(jobType)
    ensures Matching(jobs, location, jobType) == jobs.Keys
  {
    forall id | id in jobs ensures id in Matching(jobs, location, jobType) {
      assert Matches(jobs[id], location, jobType);
    }
  }

  /** Adding a filter can only narrow the selection. */
  lemma FilterNarrows(jobs: map<Id, Job>, location: Option<string>, jobType: Option<string>)
    ensures Matching(jobs, location, jobType) <= Matching(jobs, location, None)
    ensures Matching(jobs, location, jobType) <= Matching(jobs, None, jobType)
  {
    forall id | id in Matching(jobs, location, jobType)
      ensures id in Matching(jobs, location, None) && id in Matching(jobs, None, jobType)
    {
      assert Matches(jobs[id], location, None) && Matches(jobs[id], None, jobType);
    }
  }

  /** `GetJobByIdAsync`: the row with that id, or null. */
  function FindById(jobs: map<Id, Job>, id: Id): (r: Option<Job>)
    ensures r.Some? <==> id in jobs
    ensures r.Some? ==> r.value == jobs[id]
  {
    if id in jobs then Some(jobs[id]) else None
  }

  /** `GetJobsByEmployerIdAsync`: the rows whose `employer_id` is `employerId`. */
  function ByEmployer(jobs: map<Id, Job>, employerId: Id): (r: set<Job>)
    ensures forall id | id in jobs :: jobs[id] in r <==> jobs[id].employerId == employerId
    ensures forall j | j in r :: j.employerId == employerId && exists id :: id in jobs && jobs[id] == j
  {
    set id | id in jobs && jobs[id].employerId == employerId :: jobs[id]
  }

  /** The row `CreateJobAsync` writes: a fresh id, and `posted_at` stamped with
      the clock only when it is `default(DateTime)`. */
  function Stamped(job: Job, id: Id, now: Time): (r: Job)
    ensures r.id == id
    ensures r.postedAt == (if job.postedAt == DefaultTime then now else job.postedAt)
    ensures r.title == job.title && r.description == job.description
    ensures r.location == job.location && r.jobType == job.jobType
    ensures r.category == job.category && r.expiresAt == job.expiresAt
    ensures r.employerId == job.employerId
  {
    job.(id := id, postedAt := if job.postedAt == DefaultTime then now else job.postedAt)
  }

  /** `CreateJobAsync`: inserts the job under a fresh id. */
  function Create(jobs: map<Id, Job>, job: Job, newId: Id, now: Time): (r: map<Id, Job>)
    requires newId !in jobs
    ensures r.Keys == jobs.Keys + {newId}
    ensures r[newId] == Stamped(job, newId, now)
    ensures forall k | k in jobs :: r[k] == jobs[k]
  {
    jobs[newId := Stamped(job, newId, now)]
  }

  /** `UpdateJobAsync`: overwrites every column but `id` and `posted_at` of the
      row with that id, and reports whether the row existed. */
  function Update(jobs: map<Id, Job>, id: Id, job: Job): (r: (bool, map<Id, Job>))
    ensures r.0 <==> id in jobs
    ensures !r.0 ==> r.1 == jobs
    ensures r.1.Keys == jobs.Keys
    ensures forall k | k in jobs && k != id :: r.1[k] == jobs[k]
    ensures r.0 ==> && r.1[id].id == jobs[id].id
                    && r.1[id].postedAt == jobs[id].postedAt
                    && r.1[id] == job.(id := jobs[id].id, postedAt := jobs[id].postedAt)
  {
    if id in jobs then
      var row := jobs[id];
      (true, jobs[id := row.(title := job.title, description := job.description, location := job.location,
                             jobType := job.jobType, category := job.category, expiresAt := job.expiresAt,
                             employerId := job.employerId)])
    else (false, jobs)
  }

  /** `DeleteJobAsync`: removes the row with that id, if any. */
  function Delete(jobs: map<Id, Job>, id: Id): (r: map<Id, Job>)
    ensures r.Keys == jobs.Keys - {id}
    ensures forall k | k in r :: r[k] == jobs[k]
  {
    jobs - {id}
  }

  /** Deleting a freshly created job gives back the table it was added to. */
  lemma DeleteUndoesCreate(jobs: map<Id, Job>, job: Job, newId: Id, now: Time)
    requires newId !in jobs
    ensures Delete(Create(jobs, job, newId, now), newId) == jobs
  {
    assert Delete(Create(jobs, job, newId, now), newId).Keys == jobs.Keys;
  }

  /** A created job is found by id and listed under its employer. */
  lemma CreatedJobIsVisible(jobs: map<Id, Job>, job: Job, newId: Id, now: Time)
    requires newId !in jobs
    ensures FindById(Create(jobs, job, newId, now), newId) == Some(Stamped(job, newId, now))
    ensures Stamped(job, newId, now) in ByEmployer(Create(jobs, job, newId, now), job.employerId)
  {
    var after := Create(jobs, job, newId, now);
    assert newId in after;
  }
}

=== FILE: job_service.dfy ===
/**
 The job posting rules: field validation, the "actor must be an employer"
 gate, and ownership. Reads take no actor and pass the repository's answer
 through; a fresh `Guid` and the clock are inputs of `CreateJob`.
 */
module JobService {
  import opened Base
  import opened Records
  import opened Paging
  import JobRepository
  import UserRepository

  /** The three reads the service passes through unchanged. */
  method GetAllJobs(s: Store, location: Option<string>, jobType: Option<string>, page: int, pageSize: int)
    returns (r: PagedResult<Job>)
    ensures r.page == CoercePage(page) && r.pageSize == CoercePageSize(pageSize)
    ensures r.totalItems == |JobRepository.Matching(s.jobs, location, jobType)|
    ensures exists o :: IsListing(s.jobs, JobRepository.Matching(s.jobs, location, jobType), JobRepository.PostedAt, o)
                     && r.items == Window(s.jobs, o, Offset(r.page, r.pageSize), r.pageSize)
  {
    r := JobRepository.GetAll(s.jobs, location, jobType, page, pageSize);
  }

  function GetJobById(s: Store, id: Id): (r: Option<Job>)
    ensures r.Some? <==> id in s.jobs
    ensures r.Some? ==> r.value == s.jobs[id]
  {
    JobRepository.FindById(s.jobs, id)
  }

  function GetJobsByEmployerId(s: Store, employerId: Id): (r: set<Job>)
    ensures forall id | id in s.jobs :: s.jobs[id] in r <==> s.jobs[id].employerId == employerId
    ensures forall j | j in r :: j.employerId == employerId
    ensures forall j | j in r :: exists id | id in s.jobs :: s.jobs[id] == j
  {
    JobRepository.ByEmployer(s.jobs, employerId)
  }

  /** A job type the service accepts. */
  predicate IsJobType(jobType: Option<string>)
  {
    jobType == Some("remote") || jobType == Some("full-time") || jobType == Some("part-time")
  }

  /** The payload checks shared by create and update, in order; `None` when
      the payload passes. */
  function CheckJob(job: Job): (r: Option<Violation>)
    ensures r.None? <==> !IsNullOrEmpty(job.title) && !IsNullOrEmpty(job.description) && IsJobType(job.jobType)
    ensures r == Some(TitleRequired) <==> IsNullOrEmpty(job.title)
    ensures r.Some? ==> r.value in {TitleRequired, DescriptionRequired, JobTypeInvalid}
  {
    if IsNullOrEmpty(job.title) then Some(TitleRequired)
    else if IsNullOrEmpty(job.description) then Some(DescriptionRequired)
    else if IsNullOrEmpty(job.jobType)
         || (job.jobType != Some("remote") && job.jobType != Some("full-time") && job.jobType != Some("part-time")) then
      Some(JobTypeInvalid)
    else None
  }

  /** A payload that passes `CheckJob`. */
  predicate ValidJob(job: Job)
  {
    !IsNullOrEmpty(job.title) && !IsNullOrEmpty(job.description) && IsJobType(job.jobType)
  }

  /** `CreateJobAsync`: validates, requires an employer actor, and stores the
      job under a fresh id with the actor as its employer, whatever the payload
      said. */
  function CreateJob(s: Store, job: Job, actor: Id, newId: Id, now: Time): (r: Reply<()>)
    requires newId !in s.jobs
    ensures r.outcome.ArgumentError? <==> !ValidJob(job)
    ensures r.outcome == OperationError(WrongRole) <==> ValidJob(job) && !ActsAs(s.users, actor, Employer)
    ensures r.outcome.Ok? <==> ValidJob(job) && ActsAs(s.users, actor, Employer)
    ensures !r.outcome.Ok? ==> r.store == s
    ensures r.store.users == s.users && r.store.applications == s.applications
    ensures r.outcome.Ok? ==>
      && r.store.jobs.Keys == s.jobs.Keys + {newId}
      && (forall k | k in s.jobs :: r.store.jobs[k] == s.jobs[k])
      && r.store.jobs[newId].employerId == actor
      && r.store.jobs[newId] == JobRepository.Stamped(job.(employerId := actor), newId, now)
    ensures JobsKeyed(s.jobs) ==> JobsKeyed(r.store.jobs)
  {
    match CheckJob(job)
    case Some(v) => Reply(ArgumentError(v), s)
    case None =>
      var user := UserRepository.FindById(s.users, actor);
      if user.None? || user.value.role != Some(Employer) then Reply(OperationError(WrongRole), s)
      else Reply(Ok(()), s.(jobs := JobRepository.Create(s.jobs, job.(employerId := actor), newId, now)))
  }

  /** `UpdateJobAsync`: the same validation and role gate; the silent `false`
      when the job is absent or owned by another employer; otherwise overwrites
      the job, keeping the actor as its employer. */
  function UpdateJob(s: Store, id: Id, job: Job, actor: Id): (r: Reply<()>)
    ensures r.outcome.ArgumentError? <==> !ValidJob(job)
    ensures r.outcome == OperationError(WrongRole) <==> ValidJob(job) && !ActsAs(s.users, actor, Employer)
    ensures r.outcome == NotUpdated <==>
      ValidJob(job) && ActsAs(s.users, actor, Employer) && !(id in s.jobs && s.jobs[id].employerId == actor)
    ensures r.outcome.Ok? <==>
      ValidJob(job) && ActsAs(s.users, actor, Employer) && id in s.jobs && s.jobs[id].employerId == actor
    ensures !r.outcome.Ok? ==> r.store == s
    ensures r.store.users == s.users && r.store.applications == s.applications
    ensures r.outcome.Ok? ==>
      && r.store.jobs.Keys == s.jobs.Keys
      && (forall k | k in s.jobs && k != id :: r.store.jobs[k] == s.jobs[k])
      && r.store.jobs[id].employerId == actor
      && r.store.jobs[id].id == s.jobs[id].id
      && r.store.jobs[id].postedAt == s.jobs[id].postedAt
      && r.store.jobs[id].title == job.title
      && r.store.jobs[id].description == job.description
      && r.store.jobs[id].location == job.location
      && r.store.jobs[id].jobType == job.jobType
      && r.store.jobs[id].category == job.category
      && r.store.jobs[id].expiresAt == job.expiresAt
    ensures JobsKeyed(s.jobs) ==> JobsKeyed(r.store.jobs)
  {
    match CheckJob(job)
    case Some(v) => Reply(ArgumentError(v), s)
    case None =>
      var user := UserRepository.FindById(s.users, actor);
      if user.None? || user.value.role != Some(Employer) then Reply(OperationError(WrongRole), s)
      else
        var existing := JobRepository.FindById(s.jobs, id);
        if existing.None? || existing.value.employerId != actor then Reply(NotUpdated, s)
        else
          var (found, jobs) := JobRepository.Update(s.jobs, id, job.(employerId := actor));
          Reply(if found then Ok(()) else NotUpdated, s.(jobs := jobs))
  }

  /** `DeleteJobAsync`: requires an employer actor who owns the job, and
      otherwise throws rather than reporting `false`. */
  function DeleteJob(s: Store, id: Id, actor: Id): (r: Reply<()>)
    ensures r.outcome == OperationError(WrongRole) <==> !ActsAs(s.users, actor, Employer)
    ensures r.outcome == OperationError(NotOwner) <==>
      ActsAs(s.users, actor, Employer) && !(id in s.jobs && s.jobs[id].employerId == actor)
    ensures r.outcome.Ok? <==> ActsAs(s.users, actor, Employer) && id in s.jobs && s.jobs[id].employerId == actor
    ensures r.outcome.Ok? || r.outcome.OperationError?
    ensures !r.outcome.Ok? ==> r.store == s
    ensures r.store.users == s.users && r.store.applications == s.applications
    ensures r.outcome.Ok? ==>
      && r.store.jobs.Keys == s.jobs.Keys - {id}
      && forall k | k in r.store.jobs :: r.store.jobs[k] == s.jobs[k]
    ensures JobsKeyed(s.jobs) ==> JobsKeyed(r.store.jobs)
  {
    var user := UserRepository.FindById(s.users, actor);
    if user.None? || user.value.role != Some(Employer) then Reply(OperationError(WrongRole), s)
    else
      var job := JobRepository.FindById(s.jobs, id);
      if job.None? || job.value.employerId != actor then Reply(OperationError(NotOwner), s)
      else Reply(Ok(()), s.(jobs := JobRepository.Delete(s.jobs, id)))
  }

  /** Update cannot tell a job owned by someone else from a missing one: the
      reply is the one it gives once that job is removed. */
  lemma UpdateHidesOtherOwnersJobs(s: Store, id: Id, job: Job, actor: Id)
    requires id in s.jobs && s.jobs[id].employerId != actor
    ensures UpdateJob(s, id, job, actor).outcome == UpdateJob(s.(jobs := s.jobs - {id}), id, job, actor).outcome
  {
  }

  /** Delete answers the same two situations with an error instead, and the
      job stays. */
  lemma DeleteRefusesOtherOwnersJobs(s: Store, id: Id, actor: Id)
    requires ActsAs(s.users, actor, Employer)
    requires id in s.jobs && s.jobs[id].employerId != actor
    ensures DeleteJob(s, id, actor).outcome == OperationError(NotOwner)
    ensures GetJobById(DeleteJob(s, id, actor).store, id) == Some(s.jobs[id])
  {
  }

  /** Every job a successful create or update leaves behind is owned by the
      actor, so ownership never passes to someone else through these calls. */
  lemma WritesKeepActorAsOwner(s: Store, id: Id, job: Job, actor: Id, newId: Id, now: Time)
    requires newId !in s.jobs
    ensures CreateJob(s, job, actor, newId, now).outcome.Ok? ==>
      CreateJob(s, job, actor, newId, now).store.jobs[newId] in GetJobsByEmployerId(CreateJob(s, job, actor, newId, now).store, actor)
    ensures UpdateJob(s, id, job, actor).outcome.Ok? ==>
      UpdateJob(s, id, job, actor).store.jobs[id] in GetJobsByEmployerId(UpdateJob(s, id, job, actor).store, actor)
  {
    var c := CreateJob(s, job, actor, newId, now);
    if c.outcome.Ok? {
      assert newId in c.store.jobs;
    }
    var u := UpdateJob(s, id, job, actor);
    if u.outcome.Ok? {
      assert id in u.store.jobs;
    }
  }

  /** The owner can delete a job right after creating it, which gives back the
      store as it was. */
  lemma CreateThenDeleteRestores(s: Store, job: Job, actor: Id, newId: Id, now: Time)
    requires newId !in s.jobs
    requires CreateJob(s, job, actor, newId, now).outcome.Ok?
    ensures DeleteJob(CreateJob(s, job, actor, newId, now).store, newId, actor) == Reply(Ok(()), s)
  {
    var s1 := CreateJob(s, job, actor, newId, now).store;
    JobRepository.DeleteUndoesCreate(s.jobs, job.(employerId := actor), newId, now);
  }

  /** A payload whose job type is none of the three accepted ones is refused
      by create and update before anything is read, and no job is written. */
  lemma RejectsUnknownJobType(s: Store, job: Job, actor: Id, newId: Id, now: Time, id: Id)
    requires newId !in s.jobs
    requires !IsNullOrEmpty(job.title) && !IsNullOrEmpty(job.description) && !IsJobType(job.jobType)
    ensures CreateJob(s, job, actor, newId, now) == Reply(ArgumentError(JobTypeInvalid), s)
    ensures UpdateJob(s, id, job, actor) == Reply(ArgumentError(JobTypeInvalid), s)
  {
  }
}

=== FILE: paging.dfy ===
/**
 The paged listing shared by the job and application repositories:
 coerce `page`/`pageSize`, count every selected row, order the selected rows
 newest first, skip `(page - 1) * pageSize` of them and return at most
 `pageSize`. The database leaves the order of rows with equal timestamps
 unspecified, so the contract fixes the order only up to such ties.
 */
module Paging {
  import opened Base

  /** `PagedResult<T>` as the repositories construct it. */
  datatype PagedResult<T> = PagedResult(items: seq<T>, totalItems: nat, page: int, pageSize: int)

  /** The page size used when the caller's is below one. */
  const DefaultPageSize := 5

  function CoercePage(page: int): (p: int)
    ensures p >= 1
    ensures page >= 1 ==> p == page
    ensures page < 1 ==> p == 1
  {
    if page < 1 then 1 else page
  }

  function CoercePageSize(pageSize: int): (n: int)
    ensures n >= 1
    ensures pageSize >= 1 ==> n == pageSize
    ensures pageSize < 1 ==> n == DefaultPageSize
  {
    if pageSize < 1 then DefaultPageSize else pageSize
  }

  /** The number of rows skipped before the requested page. */
  function Offset(page: int, pageSize: int): (o: nat)
    requires page >= 1 && pageSize >= 1
    ensures o % pageSize == 0 && o / pageSize == page - 1
  {
    PageStart(page - 1, pageSize);
    (page - 1) * pageSize
  }

  /** Euclidean division is unique: a quotient and a remainder below `n`
      that rebuild `x` are the ones `/` and `%` give. */
  lemma DivUnique(x: int, n: int, q: int, r: int)
    requires n >= 1 && 0 <= r < n && x == n * q + r
    ensures x / n == q && x % n == r
  {
    var d := q - x / n;
    assert n * d == x % n - r by {
      assert n * q - n * (x / n) == n * d;
    }
    if d >= 1 {
      MulAtLeast(n, d);
    } else if d <= -1 {
      MulAtLeast(n, -d);
    }
  }

  /** A positive multiple of `n` is at least `n`. */
  lemma MulAtLeast(n: int, d: int)
    requires n >= 1 && d >= 1
    ensures n * d >= n
  {
    assert n * d == n * (d - 1) + n;
  }

  /** `k` whole pages of `n` rows end exactly on a page boundary. */
  lemma PageStart(k: nat, n: int)
    requires n >= 1
    ensures (k * n) % n == 0 && (k * n) / n == k
  {
    DivUnique(k * n, n, k, 0);
  }

  /** The keys in `o` name rows of `m`, with non-increasing timestamps. */
  predicate Descending<T>(m: map<Id, T>, stamp: T -> Time, o: seq<Id>)
  {
    && (forall i | 0 <= i < |o| :: o[i] in m)
    && (forall i, j | 0 <= i < j < |o| :: stamp(m[o[i]]) >= stamp(m[o[j]]))
  }

  /** `o` is an `ORDER BY stamp DESC` listing of the rows `keep`: each key of
      `keep` exactly once, newest first. */
  predicate IsListing<T>(m: map<Id, T>, keep: set<Id>, stamp: T -> Time, o: seq<Id>)
  {
    multiset(o) == multiset(keep) && Descending(m, stamp, o)
  }

  /** `OFFSET offset ROWS FETCH NEXT size ROWS ONLY` over the listing `o`. */
  function Window<T>(m: map<Id, T>, o: seq<Id>, offset: nat, size: nat): (w: seq<T>)
    requires forall i | 0 <= i < |o| :: o[i] in m
    ensures offset >= |o| ==> w == []
    ensures offset + size <= |o| ==> |w| == size
    ensures offset < |o| < offset + size ==> |w| == |o| - offset
    ensures forall k | 0 <= k < |w| :: offset + k < |o| && w[k] == m[o[offset + k]]
  {
    var lo := if offset < |o| then offset else |o|;
    var hi := if offset + size < |o| then offset + size else |o|;
    seq(hi - lo, k requires 0 <= k < hi - lo => m[o[lo + k]])
  }

  /** Inserts `id` into a descending listing, before any row with the same
      timestamp. */
  function InsertDesc<T>(m: map<Id, T>, stamp: T -> Time, o: seq<Id>, id: Id): (o': seq<Id>)
    requires id in m && Descending(m, stamp, o)
    ensures Descending(m, stamp, o')
    ensures multiset(o') == multiset(o) + multiset{id}
    decreases |o|
  {
    if |o| == 0 || stamp(m[id]) >= stamp(m[o[0]]) then
      PrependDescending(m, stamp, id, o);
      [id] + o
    else
      var rest := InsertDesc(m, stamp, o[1..], id);
      assert o == [o[0]] + o[1..];
      BoundCarries(m, stamp, o[1..] + [id], rest, stamp(m[o[0]]));
      PrependDescending(m, stamp, o[0], rest);
      [o[0]] + rest
  }

  /** A row no older than any row of a descending listing can go in front. */
  lemma PrependDescending<T>(m: map<Id, T>, stamp: T -> Time, x: Id, o: seq<Id>)
    requires x in m && Descending(m, stamp, o)
    requires |o| == 0 || stamp(m[x]) >= stamp(m[o[0]]) || forall k | 0 <= k < |o| :: stamp(m[o[k]]) <= stamp(m[x])
    ensures Descending(m, stamp, [x] + o)
  {
    var o' := [x] + o;
    forall i, j | 0 <= i < j < |o'| ensures stamp(m[o'[i]]) >= stamp(m[o'[j]]) {
      if i == 0 && |o| > 0 && stamp(m[x]) >= stamp(m[o[0]]) {
        assert stamp(m[o[0]]) >= stamp(m[o[j - 1]]) || j == 1;
      }
    }
  }

  /** A timestamp bound on a listing holds of any rearrangement of it. */
  lemma BoundCarries<T>(m: map<Id, T>, stamp: T -> Time, xs: seq<Id>, ys: seq<Id>, b: Time)
    requires forall i | 0 <= i < |xs| :: xs[i] in m && stamp(m[xs[i]]) <= b
    requires multiset(ys) == multiset(xs)
    ensures forall k | 0 <= k < |ys| :: ys[k] in m && stamp(m[ys[k]]) <= b
  {
    forall k | 0 <= k < |ys|
      ensures ys[k] in m && stamp(m[ys[k]]) <= b
    {
      assert ys[k] in multiset(ys);
      assert ys[k] in xs;
    }
  }

  /** The paged listing of the rows `keep` of `m`. */
  method Page<T>(m: map<Id, T>, keep: set<Id>, stamp: T -> Time, page: int, pageSize: int)
    returns (r: PagedResult<T>)
    requires keep <= m.Keys
    ensures r.page == CoercePage(page) && r.pageSize == CoercePageSize(pageSize)
    ensures r.totalItems == |keep|
    ensures exists o :: IsListing(m, keep, stamp, o) && r.items == Window(m, o, Offset(r.page, r.pageSize), r.pageSize)
  {
    var p := CoercePage(page);
    var size := CoercePageSize(pageSize);
    var o: seq<Id> := [];
    var rest := keep;
    while rest != {}
      invariant rest <= keep
      invariant multiset(o) == multiset(keep - rest)
      invariant Descending(m, stamp, o)
      decreases |rest|
    {
      var id :| id in rest;
      o := InsertDesc(m, stamp, o, id);
      assert keep - (rest - {id}) == (keep - rest) + {id};
      rest := rest - {id};
    }
    assert keep - rest == keep;
    r := PagedResult(Window(m, o, Offset(p, size), size), |keep|, p, size);
    assert IsListing(m, keep, stamp, o);
  }

  /** Whatever the tie order, a page holds at most `pageSize` rows of the
      selection, newest first. */
  lemma {:induction false} WindowOfListing<T>(m: map<Id, T>, keep: set<Id>, stamp: T -> Time, o: seq<Id>, offset: nat, size: nat)
    requires IsListing(m, keep, stamp, o)
    ensures |Window(m, o, offset, size)| <= size
    ensures |Window(m, o, offset, size)| <= |keep|
    ensures offset >= |keep| ==> Window(m, o, offset, size) == []
    ensures forall i, j | 0 <= i < j < |Window(m, o, offset, size)| ::
      stamp(Window(m, o, offset, size)[i]) >= stamp(Window(m, o, offset, size)[j])
    ensures forall k | 0 <= k < |Window(m, o, offset, size)| ::
      exists id :: id in keep && id in m && Window(m, o, offset, size)[k] == m[id]
  {
    assert |multiset(o)| == |multiset(keep)|;
    var w := Window(m, o, offset, size);
    var lo := if offset < |o| then offset else |o|;
    forall k | 0 <= k < |w|
      ensures exists id :: id in keep && id in m && w[k] == m[id]
    {
      assert o[lo + k] in multiset(o);
      assert o[lo + k] in keep;
    }
  }
}

=== FILE: records.dfy ===
/**
 The three stored entities (`User`, `Job`, `Application`), the in-memory store
 that stands for the three database tables, and the outcomes a service
 operation can report.
 */
module Records {
  import opened Base

  /** The two role names the services accept. */
  const Employer := "employer"
  const Candidate := "candidate"

  /** A row of the `users` table. `passwordHash` carries the plaintext password
      while a user travels from a caller into the service. */
  datatype User = User(
    id: Id,
    email: Option<string>,
    passwordHash: Option<string>,
    role: Option<string>,
    fullName: Option<string>,
    createdAt: Time)

  /** A row of the `jobs` table. */
  datatype Job = Job(
    id: Id,
    title: Option<string>,
    description: Option<string>,
    location: Option<string>,
    jobType: Option<string>,
    category: Option<string>,
    postedAt: Time,
    expiresAt: Option<Time>,
    employerId: Id)

  /** A row of the `applications` table. */
  datatype Application = Application(
    id: Id,
    userId: Id,
    jobId: Id,
    coverLetter: Option<string>,
    appliedAt: Time)

  /** The three tables, each keyed by its primary key. */
  datatype Store = Store(
    users: map<Id, User>,
    jobs: map<Id, Job>,
    applications: map<Id, Application>)

  /** Each row sits under its own primary key. */
  predicate UsersKeyed(users: map<Id, User>)
  {
    forall id | id in users :: users[id].id == id
  }

  predicate JobsKeyed(jobs: map<Id, Job>)
  {
    forall id | id in jobs :: jobs[id].id == id
  }

  predicate ApplicationsKeyed(applications: map<Id, Application>)
  {
    forall id | id in applications :: applications[id].id == id
  }

  predicate Keyed(s: Store)
  {
    UsersKeyed(s.users) && JobsKeyed(s.jobs) && ApplicationsKeyed(s.applications)
  }

  /** No two users share a non-empty email. */
  predicate UniqueEmails(users: map<Id, User>)
  {
    forall a, b | a in users && b in users && a != b && !IsNullOrEmpty(users[a].email) ::
      users[a].email != users[b].email
  }

  /** No two users share a non-empty full name (the "username"). */
  predicate UniqueNames(users: map<Id, User>)
  {
    forall a, b | a in users && b in users && a != b && !IsNullOrEmpty(users[a].fullName) ::
      users[a].fullName != users[b].fullName
  }

  /** A candidate applies to a given job at most once. */
  predicate UniquePairs(applications: map<Id, Application>)
  {
    forall a, b | a in applications && b in applications && a != b ::
      applications[a].userId != applications[b].userId || applications[a].jobId != applications[b].jobId
  }

  /** The gate in front of every write: the actor's row exists and carries
      exactly the given role. */
  predicate ActsAs(users: map<Id, User>, actor: Id, role: string)
  {
    actor in users && users[actor].role == Some(role)
  }

  /** A role value the user service accepts. */
  predicate IsRole(role: Option<string>)
  {
    role == Some(Candidate) || role == Some(Employer)
  }

  /** The reason an `ArgumentException` is thrown. */
  datatype Violation =
    | FullNameRequired
    | EmailRequired
    | PasswordRequired
    | RoleInvalid
    | CredentialsRequired
    | TitleRequired
    | DescriptionRequired
    | JobTypeInvalid

  /** The reason an `InvalidOperationException` is thrown. */
  datatype Cause =
    | WrongRole
    | NotOwner
    | JobNotFound
    | NameTaken
    | EmailTaken
    | AlreadyApplied

  /** What a service operation reports: a value, a validation failure, a
      rejection, or the silent `false` of the update operations. */
  datatype Outcome<+T> =
    | Ok(value: T)
    | ArgumentError(violation: Violation)
    | OperationError(cause: Cause)
    | NotUpdated

  /** An outcome together with the store after the operation. */
  datatype Reply<+T> = Reply(outcome: Outcome<T>, store: Store)
}

=== FILE: user_repository.dfy ===
/**
 The `users` table as a map from id to row, with the meaning of each query the
 user repository issues.
 */
module UserRepository {
  import opened Base
  import opened Records

  /** `GetAllUsersAsync`: every row. */
  function All(users: map<Id, User>): (r: set<User>)
    ensures forall id | id in users :: users[id] in r
    ensures forall u | u in r :: exists id :: id in users && users[id] == u
  {
    users.Values
  }

  /** `GetUserByIdAsync`: the row with that id, or null. */
  function FindById(users: map<Id, User>, id: Id): (r: Option<User>)
    ensures r.Some? <==> id in users
    ensures r.Some? ==> r.value == users[id]
  {
    if id in users then Some(users[id]) else None
  }

  /** The role gate of the services (`user == null || user.Role != role`,
      negated) is `ActsAs`, and no actor passes two different gates. */
  lemma RoleGate(users: map<Id, User>, actor: Id, role: string, other: string)
    ensures ActsAs(users, actor, role) <==> FindById(users, actor).Some? && FindById(users, actor).value.role == Some(role)
    ensures ActsAs(users, actor, role) && ActsAs(users, actor, other) ==> role == other
  {
  }

  /** The ids of the rows whose `full_name` equals `name`. */
  function WithName(users: map<Id, User>, name: Option<string>): set<Id>
  {
    set id | id in users && users[id].fullName == name
  }

  /** The ids of the rows whose `email` equals `email`. */
  function WithEmail(users: map<Id, User>, email: Option<string>): set<Id>
  {
    set id | id in users && users[id].email == email
  }

  /** `UsernameExistsAsync`: false for a null or empty name, otherwise whether
      `COUNT(1)` of the rows with that `full_name` is positive. */
  function UsernameExists(users: map<Id, User>, name: Option<string>): (r: bool)
    ensures r <==> !IsNullOrEmpty(name) && exists id :: id in users && users[id].fullName == name
  {
    if IsNullOrEmpty(name) then false
    else
      var matching := WithName(users, name);
      CountPositive(matching);
      assert (exists id :: id in matching) <==> exists id :: id in users && users[id].fullName == name by {
        forall id | id in users && users[id].fullName == name ensures id in matching { }
      }
      |matching| > 0
  }

  /** `EmailExistsAsync`: false for a null or empty email, otherwise whether
      `COUNT(1)` of the rows with that `email` is positive. */
  function EmailExists(users: map<Id, User>, email: Option<string>): (r: bool)
    ensures r <==> !IsNullOrEmpty(email) && exists id :: id in users && users[id].email == email
  {
    if IsNullOrEmpty(email) then false
    else
      var matching := WithEmail(users, email);
      CountPositive(matching);
      assert (exists id :: id in matching) <==> exists id :: id in users && users[id].email == email by {
        forall id | id in users && users[id].email == email ensures id in matching { }
      }
      |matching| > 0
  }

  /** Some row has exactly this email; `email = NULL` matches no row. */
  predicate EmailOnRecord(users: map<Id, User>, email: Option<string>)
  {
    email.Some? && exists id :: id in users && users[id].email == email
  }

  /** `GetUserByEmailAsync`: a row with that email, or null when there is none.
      Several rows may share an email; the query then returns one of them, and
      this model takes the one with the least id. */
  function FindByEmail(users: map<Id, User>, email: Option<string>): (r: Option<User>)
    ensures r.Some? <==> EmailOnRecord(users, email)
    ensures r.Some? ==> r.value.email == email && r.value in users.Values
  {
    if email.None? then None
    else
      var matching := WithEmail(users, email);
      if matching == {} then
        assert !EmailOnRecord(users, email) by {
          forall id | id in users && users[id].email == email ensures id in matching { }
        }
        None
      else
        LeastExists(matching);
        var id :| id in matching && forall x | x in matching :: id <= x;
        Some(users[id])
  }

  /** With unique emails, the row found by email is the row holding it. */
  lemma FindByUniqueEmail(users: map<Id, User>, id: Id)
    requires UniqueEmails(users)
    requires id in users && !IsNullOrEmpty(users[id].email)
    ensures FindByEmail(users, users[id].email) == Some(users[id])
  {
    var email := users[id].email;
    assert WithEmail(users, email) == {id};
  }

  /** The single-row `CreateUserAsync`: stores the row as given, with the
      caller's id and `CreatedAt`. */
  function Create(users: map<Id, User>, u: User): (r: map<Id, User>)
    requires u.id !in users
    ensures r.Keys == users.Keys + {u.id}
    ensures r[u.id] == u
    ensures forall k | k in users :: r[k] == users[k]
  {
    users[u.id := u]
  }

  /** The row a batch insert writes: a fresh id, and `created_at` stamped with
      the clock only when it is `default(DateTime)`. */
  function Stamped(u: User, id: Id, now: Time): (r: User)
    ensures r.id == id
    ensures r.createdAt == (if u.createdAt == DefaultTime then now else u.createdAt)
    ensures r.email == u.email && r.passwordHash == u.passwordHash
    ensures r.role == u.role && r.fullName == u.fullName
  {
    u.(id := id, createdAt := if u.createdAt == DefaultTime then now else u.createdAt)
  }

  /** Fresh identifiers for a batch: pairwise distinct and not yet stored. */
  predicate FreshIds<R>(rows: map<Id, R>, ids: seq<Id>)
  {
    && (forall i, j | 0 <= i < j < |ids| :: ids[i] != ids[j])
    && (forall i | 0 <= i < |ids| :: ids[i] !in rows)
  }

  /** The batch `CreateUserAsync`: inserts the users one at a time in list
      order, the `i`-th under the fresh id `ids[i]`. */
  function CreateBatch(users: map<Id, User>, batch: seq<User>, ids: seq<Id>, now: Time): (r: map<Id, User>)
    requires |ids| == |batch| && FreshIds(users, ids)
    ensures r.Keys == users.Keys + set i | 0 <= i < |ids| :: ids[i]
    ensures forall k | k in users :: r[k] == users[k]
    ensures forall i | 0 <= i < |batch| :: r[ids[i]] == Stamped(batch[i], ids[i], now)
    decreases |batch|
  {
    if |batch| == 0 then users
    else
      var r := CreateBatch(users[ids[0] := Stamped(batch[0], ids[0], now)], batch[1..], ids[1..], now);
      assert (set i | 0 <= i < |ids| :: ids[i]) == {ids[0]} + set i | 0 <= i < |ids[1..]| :: ids[1..][i];
      assert forall i | 1 <= i < |batch| :: ids[i] == ids[1..][i - 1] && batch[i] == batch[1..][i - 1];
      r
  }

  /** `UpdateUserAsync`: overwrites `full_name`, `email`, `password_hash` and
      `role` of the row with that id, and reports whether the row existed. */
  function Update(users: map<Id, User>, id: Id, u: User): (r: (bool, map<Id, User>))
    ensures r.0 <==> id in users
    ensures !r.0 ==> r.1 == users
    ensures r.1.Keys == users.Keys
    ensures forall k | k in users && k != id :: r.1[k] == users[k]
    ensures r.0 ==> && r.1[id].id == users[id].id
                    && r.1[id].createdAt == users[id].createdAt
                    && r.1[id].fullName == u.fullName
                    && r.1[id].email == u.email
                    && r.1[id].passwordHash == u.passwordHash
                    && r.1[id].role == u.role
  {
    if id in users then
      var row := users[id];
      (true, users[id := row.(fullName := u.fullName, email := u.email, passwordHash := u.passwordHash, role := u.role)])
    else (false, users)
  }

  /** `DeleteUserAsync`: removes the row with that id, if any. */
  function Delete(users: map<Id, User>, id: Id): (r: map<Id, User>)
    ensures r.Keys == users.Keys - {id}
    ensures forall k | k in r :: r[k] == users[k]
  {
    users - {id}
  }

  /** Deleting a freshly created row gives back the table it was added to. */
  lemma DeleteUndoesCreate(users: map<Id, User>, u: User)
    requires u.id !in users
    ensures Delete(Create(users, u), u.id) == users
  {
    assert Delete(Create(users, u), u.id).Keys == users.Keys;
  }

  /** Writing the same update twice is the same as writing it once. */
  lemma UpdateIdempotent(users: map<Id, User>, id: Id, u: User)
    ensures Update(Update(users, id, u).1, id, u) == Update(users, id, u)
  {
    if id in users {
      var once := Update(users, id, u).1;
      assert Update(once, id, u).1 == once;
    }
  }
}

=== FILE: user_service.dfy ===
/**
 The account rules: registration, login, bulk creation, profile update and
 delete. Hashing is a salted, non-deterministic library call, so the hash it
 produces is an input (`hashed`, or one per entry in `hashes`) and password
 verification is the caller-supplied `verify`; a fresh `Guid` and the clock
 are inputs too.
 */
module UserService {
  import opened Base
  import opened Records
  import UserRepository

  /** The two reads the service passes through unchanged. */
  function GetAllUsers(s: Store): (r: set<User>)
    ensures forall id | id in s.users :: s.users[id] in r
    ensures forall u | u in r :: exists id :: id in s.users && s.users[id] == u
  {
    UserRepository.All(s.users)
  }

  function GetUserById(s: Store, id: Id): (r: Option<User>)
    ensures r.Some? <==> id in s.users
    ensures r.Some? ==> r.value == s.users[id]
  {
    UserRepository.FindById(s.users, id)
  }

  // ---------------------------------------------------------------- bulk create

  /** What a batch entry must satisfy: every field present, a known role, and
      neither its full name nor its email held by any stored user. */
  predicate Admissible(users: map<Id, User>, u: User)
  {
    && !IsNullOrEmpty(u.fullName)
    && !IsNullOrEmpty(u.email)
    && !IsNullOrEmpty(u.passwordHash)
    && IsRole(u.role)
    && (forall id | id in users :: users[id].fullName != u.fullName)
    && (forall id | id in users :: users[id].email != u.email)
  }

  /** The checks the loop of `CreateUserAsync` applies to one entry, in order. */
  function CheckEntry(users: map<Id, User>, u: User): (r: Outcome<()>)
    ensures r.Ok? <==> Admissible(users, u)
    ensures r.Ok? || r.ArgumentError? || r.OperationError?
    ensures r.OperationError? ==>
      && !IsNullOrEmpty(u.fullName) && !IsNullOrEmpty(u.email) && !IsNullOrEmpty(u.passwordHash) && IsRole(u.role)
    ensures r == OperationError(NameTaken) ==> exists id :: id in users && users[id].fullName == u.fullName
    ensures r == OperationError(EmailTaken) ==> exists id :: id in users && users[id].email == u.email
  {
    if IsNullOrEmpty(u.fullName) then ArgumentError(FullNameRequired)
    else if IsNullOrEmpty(u.email) then ArgumentError(EmailRequired)
    else if IsNullOrEmpty(u.passwordHash) then ArgumentError(PasswordRequired)
    else if IsNullOrEmpty(u.role) || (u.role != Some(Candidate) && u.role != Some(Employer)) then ArgumentError(RoleInvalid)
    else if UserRepository.UsernameExists(users, u.fullName) then OperationError(NameTaken)
    else if UserRepository.EmailExists(users, u.email) then OperationError(EmailTaken)
    else Ok(())
  }

  /** The loop of `CreateUserAsync`: the failure of the first entry that fails,
      every entry checked against the stored users only. */
  function FirstFailure(users: map<Id, User>, batch: seq<User>): (r: Outcome<()>)
    ensures r.Ok? <==> forall i | 0 <= i < |batch| :: Admissible(users, batch[i])
    ensures !r.Ok? ==> exists i :: 0 <= i < |batch| && r == CheckEntry(users, batch[i])
                              && forall j | 0 <= j < i :: Admissible(users, batch[j])
    decreases |batch|
  {
    if |batch| == 0 then Ok(())
    else
      var first := CheckEntry(users, batch[0]);
      if !first.Ok? then first
      else
        var r := FirstFailure(users, batch[1..]);
        assert forall i | 1 <= i < |batch| :: batch[i] == batch[1..][i - 1];
        if !r.Ok? then
          var i :| 0 <= i < |batch[1..]| && r == CheckEntry(users, batch[1..][i])
                   && forall j | 0 <= j < i :: Admissible(users, batch[1..][j]);
          assert r == CheckEntry(users, batch[i + 1]);
          r
        else r
  }

  /** The entries as the loop leaves them: each password replaced by its hash
      and `CreatedAt` set to the clock as read on that entry's iteration. */
  function Prepared(batch: seq<User>, hashes: seq<string>, nows: seq<Time>): (r: seq<User>)
    requires |hashes| == |batch| && |nows| == |batch|
    ensures |r| == |batch|
    ensures forall i | 0 <= i < |r| ::
      && r[i].id == batch[i].id && r[i].email == batch[i].email
      && r[i].fullName == batch[i].fullName && r[i].role == batch[i].role
    ensures forall i | 0 <= i < |r| :: r[i].passwordHash == Some(hashes[i]) && r[i].createdAt == nows[i]
  {
    seq(|batch|, i requires 0 <= i < |batch| => batch[i].(passwordHash := Some(hashes[i]), createdAt := nows[i]))
  }

  /** Each entry of the batch stored under its fresh id with its email, full
      name and role, its password hash and the clock reading of its iteration
      (the insert's own clock only if that reading were the default). */
  predicate Entries(users: map<Id, User>, batch: seq<User>, ids: seq<Id>, hashes: seq<string>, nows: seq<Time>, now: Time)
    requires |ids| == |batch| && |hashes| == |batch| && |nows| == |batch|
  {
    forall i | 0 <= i < |batch| ::
      && ids[i] in users
      && users[ids[i]].id == ids[i]
      && users[ids[i]].email == batch[i].email
      && users[ids[i]].fullName == batch[i].fullName
      && users[ids[i]].role == batch[i].role
      && users[ids[i]].passwordHash == Some(hashes[i])
      && users[ids[i]].createdAt == (if nows[i] == DefaultTime then now else nows[i])
  }

  /** What the batch insert of the prepared entries leaves in the table. */
  lemma BatchWritten(users: map<Id, User>, batch: seq<User>, ids: seq<Id>, hashes: seq<string>, nows: seq<Time>, now: Time)
    requires |ids| == |batch| && |hashes| == |batch| && |nows| == |batch|
    requires UserRepository.FreshIds(users, ids)
    ensures var written := UserRepository.CreateBatch(users, Prepared(batch, hashes, nows), ids, now);
            && Entries(written, batch, ids, hashes, nows, now)
            && (forall k | k in written :: k in users || exists i :: 0 <= i < |ids| && k == ids[i])
            && (UsersKeyed(users) ==> UsersKeyed(written))
  {
    var prepared := Prepared(batch, hashes, nows);
    var written := UserRepository.CreateBatch(users, prepared, ids, now);
    forall i | 0 <= i < |batch|
      ensures ids[i] in written && written[ids[i]] == UserRepository.Stamped(prepared[i], ids[i], now)
    { }
    forall k | k in written ensures k in users || exists i :: 0 <= i < |ids| && k == ids[i] {
      assert k in written.Keys;
    }
  }

  /** `CreateUserAsync` (bulk): every entry is checked before the single batch
      write, so a failing entry leaves the store untouched; entries are not
      checked against each other. */
  function CreateUsers(s: Store, batch: seq<User>, ids: seq<Id>, hashes: seq<string>, nows: seq<Time>, now: Time): (r: Reply<()>)
    requires |ids| == |batch| && |hashes| == |batch| && |nows| == |batch|
    requires UserRepository.FreshIds(s.users, ids)
    ensures r.outcome.Ok? <==> forall i | 0 <= i < |batch| :: Admissible(s.users, batch[i])
    ensures !r.outcome.Ok? ==> r.store == s
    ensures !r.outcome.Ok? ==> exists i :: 0 <= i < |batch| && r.outcome == CheckEntry(s.users, batch[i])
    ensures r.store.jobs == s.jobs && r.store.applications == s.applications
    ensures r.outcome.Ok? ==>
      && r.store.users.Keys == s.users.Keys + (set i | 0 <= i < |ids| :: ids[i])
      && (forall k | k in s.users :: r.store.users[k] == s.users[k])
      && Entries(r.store.users, batch, ids, hashes, nows, now)
    ensures UsersKeyed(s.users) ==> UsersKeyed(r.store.users)
  {
    var check := FirstFailure(s.users, batch);
    if !check.Ok? then Reply(check, s)
    else
      BatchWritten(s.users, batch, ids, hashes, nows, now);
      Reply(Ok(()), s.(users := UserRepository.CreateBatch(s.users, Prepared(batch, hashes, nows), ids, now)))
  }

  /** Bulk create keeps emails and full names unique when the entries of the
      batch are pairwise distinct in both. */
  lemma CreateUsersKeepsUniqueness(s: Store, batch: seq<User>, ids: seq<Id>, hashes: seq<string>, nows: seq<Time>, now: Time)
    requires |ids| == |batch| && |hashes| == |batch| && |nows| == |batch|
    requires UserRepository.FreshIds(s.users, ids)
    requires UniqueEmails(s.users) && UniqueNames(s.users)
    requires forall i, j | 0 <= i < j < |batch| :: batch[i].email != batch[j].email && batch[i].fullName != batch[j].fullName
    ensures UniqueEmails(CreateUsers(s, batch, ids, hashes, nows, now).store.users)
    ensures UniqueNames(CreateUsers(s, batch, ids, hashes, nows, now).store.users)
  {
    var r := CreateUsers(s, batch, ids, hashes, nows, now);
    if r.outcome.Ok? {
      var users := r.store.users;
      BatchWritten(s.users, batch, ids, hashes, nows, now);
      forall a, b | a in users && b in users && a != b
        ensures users[a].email != users[b].email || IsNullOrEmpty(users[a].email)
        ensures users[a].fullName != users[b].fullName || IsNullOrEmpty(users[a].fullName)
      {
        StoredPairDistinct(s, batch, ids, hashes, nows, now, a, b);
      }
    }
  }

  /** One pair of rows after a successful bulk create: an old row and a new
      row differ because the entry was admissible; two new rows differ
      because the entries were distinct. */
  lemma StoredPairDistinct(s: Store, batch: seq<User>, ids: seq<Id>, hashes: seq<string>, nows: seq<Time>, now: Time, a: Id, b: Id)
    requires |ids| == |batch| && |hashes| == |batch| && |nows| == |batch|
    requires UserRepository.FreshIds(s.users, ids)
    requires UniqueEmails(s.users) && UniqueNames(s.users)
    requires forall i, j | 0 <= i < j < |batch| :: batch[i].email != batch[j].email && batch[i].fullName != batch[j].fullName
    requires CreateUsers(s, batch, ids, hashes, nows, now).outcome.Ok?
    requires a in CreateUsers(s, batch, ids, hashes, nows, now).store.users
    requires b in CreateUsers(s, batch, ids, hashes, nows, now).store.users
    requires a != b
    ensures var users := CreateUsers(s, batch, ids, hashes, nows, now).store.users;
            && (users[a].email != users[b].email || IsNullOrEmpty(users[a].email))
            && (users[a].fullName != users[b].fullName || IsNullOrEmpty(users[a].fullName))
  {
    var users := CreateUsers(s, batch, ids, hashes, nows, now).store.users;
    BatchWritten(s.users, batch, ids, hashes, nows, now);
    if a in s.users && b in s.users {
      assert users[a] == s.users[a] && users[b] == s.users[b];
    } else if a in s.users {
      var j :| 0 <= j < |ids| && b == ids[j];
      assert Admissible(s.users, batch[j]);
      assert users[a] == s.users[a];
    } else if b in s.users {
      var i :| 0 <= i < |ids| && a == ids[i];
      assert Admissible(s.users, batch[i]);
      assert users[b] == s.users[b];
    } else {
      var i :| 0 <= i < |ids| && a == ids[i];
      var j :| 0 <= j < |ids| && b == ids[j];
      assert i != j;
      if i < j {} else {}
    }
  }

  /** Within one batch two entries may share an email (or a full name): both
      are checked only against the stored users, and both are written. */
  lemma BatchAdmitsSharedEmail()
    ensures var u := User(0, Some("a@x.com"), Some("pw"), Some(Candidate), Some("Ann"), DefaultTime);
            var v := u.(fullName := Some("Bob"));
            var r := CreateUsers(Store(map[], map[], map[]), [u, v], [1, 2], ["h1", "h2"], [7, 8], 9);
            && r.outcome.Ok?
            && !UniqueEmails(r.store.users)
  {
    var u := User(0, Some("a@x.com"), Some("pw"), Some(Candidate), Some("Ann"), DefaultTime);
    var v := u.(fullName := Some("Bob"));
    var s := Store(map[], map[], map[]);
    var batch := [u, v];
    assert Admissible(s.users, batch[0]) && Admissible(s.users, batch[1]);
    var r := CreateUsers(s, batch, [1, 2], ["h1", "h2"], [7, 8], 9);
    assert r.outcome.Ok?;
    assert [1, 2][0] == 1 && [1, 2][1] == 2;
    assert 1 in r.store.users && 2 in r.store.users;
    assert r.store.users[1].email == Some("a@x.com") == r.store.users[2].email;
  }

  /** An entry checked as separate one-entry bulk creates would check it:
      against the stored users and against the entries written before it. */
  function CheckEntryAfter(users: map<Id, User>, earlier: seq<User>, u: User): (r: Outcome<()>)
    ensures r.Ok? <==> Admissible(users, u) && forall j | 0 <= j < |earlier| ::
      earlier[j].fullName != u.fullName && earlier[j].email != u.email
    ensures !CheckEntry(users, u).Ok? ==> r == CheckEntry(users, u)
  {
    var c := CheckEntry(users, u);
    if !c.Ok? then c
    else if exists j | 0 <= j < |earlier| :: earlier[j].fullName == u.fullName then OperationError(NameTaken)
    else if exists j | 0 <= j < |earlier| :: earlier[j].email == u.email then OperationError(EmailTaken)
    else Ok(())
  }

  /** The first failure of the corrected loop, from entry `i` onwards. */
  function FirstClash(users: map<Id, User>, batch: seq<User>, i: nat): (r: Outcome<()>)
    requires i <= |batch|
    ensures r.Ok? <==> forall k | i <= k < |batch| :: CheckEntryAfter(users, batch[..k], batch[k]).Ok?
    ensures !r.Ok? ==> exists k :: i <= k < |batch| && r == CheckEntryAfter(users, batch[..k], batch[k])
    decreases |batch| - i
  {
    if i == |batch| then Ok(())
    else
      var c := CheckEntryAfter(users, batch[..i], batch[i]);
      if !c.Ok? then c else FirstClash(users, batch, i + 1)
  }

  /** The corrected loop passes exactly when every entry is admissible and no
      two entries share a full name or an email. */
  lemma FirstClashChecks(users: map<Id, User>, batch: seq<User>)
    ensures FirstClash(users, batch, 0).Ok? <==>
      && (forall i | 0 <= i < |batch| :: Admissible(users, batch[i]))
      && (forall i, j | 0 <= i < j < |batch| :: batch[i].email != batch[j].email && batch[i].fullName != batch[j].fullName)
  {
    if FirstClash(users, batch, 0).Ok? {
      forall i | 0 <= i < |batch| ensures Admissible(users, batch[i]) {
        assert CheckEntryAfter(users, batch[..i], batch[i]).Ok?;
      }
      forall i, j | 0 <= i < j < |batch|
        ensures batch[i].email != batch[j].email && batch[i].fullName != batch[j].fullName
      {
        assert CheckEntryAfter(users, batch[..j], batch[j]).Ok?;
        assert batch[..j][i] == batch[i];
      }
    } else {
      var k :| 0 <= k < |batch| && !CheckEntryAfter(users, batch[..k], batch[k]).Ok?;
      if Admissible(users, batch[k]) {
        var j :| 0 <= j < k && (batch[..k][j].fullName == batch[k].fullName || batch[..k][j].email == batch[k].email);
        assert batch[..k][j] == batch[j];
      }
    }
  }

  /** Bulk create as evidently intended: a batch is refused when two of its
      entries share a full name or an email, as creating the entries in
      separate one-entry calls would refuse the second. */
  function CreateUsersChecked(s: Store, batch: seq<User>, ids: seq<Id>, hashes: seq<string>, nows: seq<Time>, now: Time): (r: Reply<()>)
    requires |ids| == |batch| && |hashes| == |batch| && |nows| == |batch|
    requires UserRepository.FreshIds(s.users, ids)
    ensures r.outcome.Ok? <==>
      && (forall i | 0 <= i < |batch| :: Admissible(s.users, batch[i]))
      && (forall i, j | 0 <= i < j < |batch| :: batch[i].email != batch[j].email && batch[i].fullName != batch[j].fullName)
    ensures !r.outcome.Ok? ==> r.store == s
    ensures r.outcome.Ok? ==> r == CreateUsers(s, batch, ids, hashes, nows, now)
  {
    FirstClashChecks(s.users, batch);
    var check := FirstClash(s.users, batch, 0);
    if !check.Ok? then Reply(check, s)
    else CreateUsers(s, batch, ids, hashes, nows, now)
  }

  /** The corrected bulk create keeps emails and full names unique, with no
      condition on the batch. */
  lemma CreateUsersCheckedKeepsUniqueness(s: Store, batch: seq<User>, ids: seq<Id>, hashes: seq<string>, nows: seq<Time>, now: Time)
    requires |ids| == |batch| && |hashes| == |batch| && |nows| == |batch|
    requires UserRepository.FreshIds(s.users, ids)
    requires UniqueEmails(s.users) && UniqueNames(s.users)
    ensures UniqueEmails(CreateUsersChecked(s, batch, ids, hashes, nows, now).store.users)
    ensures UniqueNames(CreateUsersChecked(s, batch, ids, hashes, nows, now).store.users)
  {
    if CreateUsersChecked(s, batch, ids, hashes, nows, now).outcome.Ok? {
      CreateUsersKeepsUniqueness(s, batch, ids, hashes, nows, now);
    }
  }

  // ---------------------------------------------------------------- update

  /** The fields `UpdateUserAsync` requires before it reads the store. */
  predicate ProfileValid(u: User)
  {
    !IsNullOrEmpty(u.fullName) && !IsNullOrEmpty(u.email) && IsRole(u.role)
  }

  /** `value` is the one the record already holds, or no stored user holds it. */
  predicate KeptOrFree(users: map<Id, User>, held: Option<string>, value: Option<string>, holds: User -> Option<string>)
  {
    value == held || forall k | k in users :: holds(users[k]) != value
  }

  function FullNameOf(u: User): Option<string> { u.fullName }

  function EmailOf(u: User): Option<string> { u.email }

  /** `UpdateUserAsync`: validates, then returns the silent `false` when the id
      is unknown; re-checks name and email uniqueness only for a changed value;
      keeps the stored hash when no new password is given. */
  function UpdateUser(s: Store, id: Id, u: User, hashed: string): (r: Reply<()>)
    ensures r.outcome.ArgumentError? <==> !ProfileValid(u)
    ensures ProfileValid(u) && id !in s.users ==> r.outcome == NotUpdated
    ensures r.outcome == OperationError(NameTaken) <==>
      && ProfileValid(u) && id in s.users
      && !KeptOrFree(s.users, s.users[id].fullName, u.fullName, FullNameOf)
    ensures r.outcome == OperationError(EmailTaken) <==>
      && ProfileValid(u) && id in s.users
      && KeptOrFree(s.users, s.users[id].fullName, u.fullName, FullNameOf)
      && !KeptOrFree(s.users, s.users[id].email, u.email, EmailOf)
    ensures r.outcome == OperationError(NameTaken) ==> exists k :: k in s.users && s.users[k].fullName == u.fullName
    ensures r.outcome == OperationError(EmailTaken) ==> exists k :: k in s.users && s.users[k].email == u.email
    ensures r.outcome.Ok? <==>
      && ProfileValid(u) && id in s.users
      && KeptOrFree(s.users, s.users[id].fullName, u.fullName, FullNameOf)
      && KeptOrFree(s.users, s.users[id].email, u.email, EmailOf)
    ensures !r.outcome.Ok? ==> r.store == s
    ensures r.store.jobs == s.jobs && r.store.applications == s.applications
    ensures r.outcome.Ok? ==>
      && r.store.users.Keys == s.users.Keys
      && (forall k | k in s.users && k != id :: r.store.users[k] == s.users[k])
      && r.store.users[id].id == s.users[id].id
      && r.store.users[id].createdAt == s.users[id].createdAt
      && r.store.users[id].fullName == u.fullName
      && r.store.users[id].email == u.email
      && r.store.users[id].role == u.role
      && r.store.users[id].passwordHash == (if IsNullOrEmpty(u.passwordHash) then s.users[id].passwordHash else Some(hashed))
    ensures UsersKeyed(s.users) ==> UsersKeyed(r.store.users)
  {
    if IsNullOrEmpty(u.fullName) then Reply(ArgumentError(FullNameRequired), s)
    else if IsNullOrEmpty(u.email) then Reply(ArgumentError(EmailRequired), s)
    else if IsNullOrEmpty(u.role) || (u.role != Some(Candidate) && u.role != Some(Employer)) then
      Reply(ArgumentError(RoleInvalid), s)
    else match UserRepository.FindById(s.users, id)
      case None => Reply(NotUpdated, s)
      case Some(existing) =>
        if u.fullName != existing.fullName && UserRepository.UsernameExists(s.users, u.fullName) then
          Reply(OperationError(NameTaken), s)
        else if u.email != existing.email && UserRepository.EmailExists(s.users, u.email) then
          Reply(OperationError(EmailTaken), s)
        else
          var password := if !IsNullOrEmpty(u.passwordHash) then Some(hashed) else existing.passwordHash;
          var (found, users) := UserRepository.Update(s.users, id, u.(passwordHash := password));
          Reply(if found then Ok(()) else NotUpdated, s.(users := users))
  }

  /** Resubmitting one's own full name and email never conflicts, even with
      another user holding the same values. */
  lemma KeepingOwnNameAndEmailSucceeds(s: Store, id: Id, u: User, hashed: string)
    requires ProfileValid(u) && id in s.users
    requires u.fullName == s.users[id].fullName && u.email == s.users[id].email
    ensures UpdateUser(s, id, u, hashed).outcome.Ok?
  {
    assert KeptOrFree(s.users, s.users[id].fullName, u.fullName, FullNameOf);
    assert KeptOrFree(s.users, s.users[id].email, u.email, EmailOf);
  }

  /** A profile update keeps emails and full names unique. */
  lemma UpdateUserKeepsUniqueness(s: Store, id: Id, u: User, hashed: string)
    requires UniqueEmails(s.users) && UniqueNames(s.users)
    ensures UniqueEmails(UpdateUser(s, id, u, hashed).store.users)
    ensures UniqueNames(UpdateUser(s, id, u, hashed).store.users)
  {
    var r := UpdateUser(s, id, u, hashed);
    if r.outcome.Ok? {
      var users := r.store.users;
      assert KeptOrFree(s.users, s.users[id].fullName, u.fullName, FullNameOf);
      assert KeptOrFree(s.users, s.users[id].email, u.email, EmailOf);
      forall a, b | a in users && b in users && a != b
        ensures users[a].email != users[b].email || IsNullOrEmpty(users[a].email)
        ensures users[a].fullName != users[b].fullName || IsNullOrEmpty(users[a].fullName)
      {
        if a == id {
          assert FullNameOf(s.users[b]) == s.users[b].fullName;
          assert EmailOf(s.users[b]) == s.users[b].email;
        } else if b == id {
          assert FullNameOf(s.users[a]) == s.users[a].fullName;
          assert EmailOf(s.users[a]) == s.users[a].email;
        }
      }
    }
  }

  // ---------------------------------------------------------------- delete

  /** `DeleteUserAsync`: removes the user with no check of any kind. */
  function DeleteUser(s: Store, id: Id): (r: Reply<()>)
    ensures r.outcome.Ok?
    ensures id !in r.store.users
    ensures r.store.users.Keys == s.users.Keys - {id}
    ensures forall k | k in r.store.users :: r.store.users[k] == s.users[k]
    ensures r.store.jobs == s.jobs && r.store.applications == s.applications
  {
    Reply(Ok(()), s.(users := UserRepository.Delete(s.users, id)))
  }

  // ---------------------------------------------------------------- register

  /** The row `RegisterAsync` writes. */
  function NewAccount(id: Id, email: Option<string>, fullName: Option<string>, role: Option<string>, hashed: string, now: Time): (u: User)
    ensures u.id == id && u.createdAt == now
    ensures u.email == email && u.fullName == fullName && u.role == role
    ensures u.passwordHash == Some(hashed)
  {
    User(id, email, Some(hashed), role, fullName, now)
  }

  /** `RegisterAsync`: requires email, password and full name, a known role and
      an email no user holds; full names are not checked. */
  function Register(s: Store, email: Option<string>, fullName: Option<string>, password: Option<string>,
                    role: Option<string>, newId: Id, now: Time, hashed: string): (r: Reply<Id>)
    requires newId !in s.users
    ensures r.outcome == ArgumentError(CredentialsRequired) <==>
      IsNullOrEmpty(email) || IsNullOrEmpty(password) || IsNullOrEmpty(fullName)
    ensures r.outcome == ArgumentError(RoleInvalid) <==>
      !IsNullOrEmpty(email) && !IsNullOrEmpty(password) && !IsNullOrEmpty(fullName) && !IsRole(role)
    ensures r.outcome == OperationError(EmailTaken) <==>
      && !IsNullOrEmpty(email) && !IsNullOrEmpty(password) && !IsNullOrEmpty(fullName) && IsRole(role)
      && exists k :: k in s.users && s.users[k].email == email
    ensures r.outcome.Ok? <==>
      && !IsNullOrEmpty(email) && !IsNullOrEmpty(password) && !IsNullOrEmpty(fullName) && IsRole(role)
      && !exists k :: k in s.users && s.users[k].email == email
    ensures r.outcome.Ok? || r.outcome.ArgumentError? || r.outcome == OperationError(EmailTaken)
    ensures !r.outcome.Ok? ==> r.store == s
    ensures r.store.jobs == s.jobs && r.store.applications == s.applications
    ensures r.outcome.Ok? ==>
      && r.outcome.value == newId
      && r.store.users.Keys == s.users.Keys + {newId}
      && (forall k | k in s.users :: r.store.users[k] == s.users[k])
      && r.store.users[newId] == User(newId, email, Some(hashed), role, fullName, now)
    ensures UsersKeyed(s.users) ==> UsersKeyed(r.store.users)
  {
    if IsNullOrEmpty(email) || IsNullOrEmpty(password) || IsNullOrEmpty(fullName) then
      Reply(ArgumentError(CredentialsRequired), s)
    else if role != Some(Employer) && role != Some(Candidate) then
      Reply(ArgumentError(RoleInvalid), s)
    else if UserRepository.FindByEmail(s.users, email).Some? then
      Reply(OperationError(EmailTaken), s)
    else
      var user := NewAccount(newId, email, fullName, role, hashed, now);
      Reply(Ok(user.id), s.(users := UserRepository.Create(s.users, user)))
  }

  /** Registration keeps emails unique. */
  lemma RegisterKeepsUniqueEmails(s: Store, email: Option<string>, fullName: Option<string>,
                                                     password: Option<string>, role: Option<string>,
                                                     newId: Id, now: Time, hashed: string)
    requires newId !in s.users && UniqueEmails(s.users)
    ensures UniqueEmails(Register(s, email, fullName, password, role, newId, now, hashed).store.users)
  {
    var r := Register(s, email, fullName, password, role, newId, now, hashed);
    if r.outcome.Ok? {
      var users := r.store.users;
      forall a, b | a in users && b in users && a != b && !IsNullOrEmpty(users[a].email)
        ensures users[a].email != users[b].email
      {
        if a == newId {
          assert users[b] == s.users[b];
        } else if b == newId {
          assert users[a] == s.users[a];
        }
      }
    }
  }

  /** Once an email is registered, every further registration with it is
      rejected, whatever the other fields; a second registration whose other
      fields are valid is rejected because the email is taken. */
  lemma SecondRegistrationRejected(s: Store, email: Option<string>, fullName: Option<string>,
                                                      password: Option<string>, role: Option<string>,
                                                      newId: Id, now: Time, hashed: string,
                                                      fullName2: Option<string>, password2: Option<string>,
                                                      role2: Option<string>, newId2: Id, hashed2: string)
    requires newId !in s.users
    requires Register(s, email, fullName, password, role, newId, now, hashed).outcome.Ok?
    requires newId2 !in Register(s, email, fullName, password, role, newId, now, hashed).store.users
    ensures !Register(Register(s, email, fullName, password, role, newId, now, hashed).store,
                      email, fullName2, password2, role2, newId2, now, hashed2).outcome.Ok?
    ensures !IsNullOrEmpty(fullName2) && !IsNullOrEmpty(password2) && IsRole(role2) ==>
      Register(Register(s, email, fullName, password, role, newId, now, hashed).store,
               email, fullName2, password2, role2, newId2, now, hashed2).outcome == OperationError(EmailTaken)
  {
    var s1 := Register(s, email, fullName, password, role, newId, now, hashed).store;
    assert s1.users[newId].email == email;
  }

  /** Registration never looks at full names: a new account may take the
      full name of any stored user, and both rows then carry it. */
  lemma RegisterIgnoresTakenFullName(s: Store, k: Id, email: Option<string>, password: Option<string>,
                                     role: Option<string>, newId: Id, now: Time, hashed: string)
    requires newId !in s.users && k in s.users
    requires !IsNullOrEmpty(s.users[k].fullName)
    requires !IsNullOrEmpty(email) && !IsNullOrEmpty(password) && IsRole(role)
    requires forall j | j in s.users :: s.users[j].email != email
    ensures var r := Register(s, email, s.users[k].fullName, password, role, newId, now, hashed);
            && r.outcome == Ok(newId)
            && r.store.users[k].fullName == r.store.users[newId].fullName
            && !UniqueNames(r.store.users)
  {
    var r := Register(s, email, s.users[k].fullName, password, role, newId, now, hashed);
    assert r.store.users[k] == s.users[k];
  }

  // ---------------------------------------------------------------- login

  /** `LoginAsync`: the user found by email when its stored hash verifies;
      otherwise the same null, whether the email is unknown or the password
      wrong. */
  function Login(s: Store, email: Option<string>, password: Option<string>,
                 verify: (Option<string>, Option<string>) -> bool): (r: Option<User>)
    ensures r.Some? ==> r.value.email == email && r.value in s.users.Values && verify(password, r.value.passwordHash)
    ensures !UserRepository.EmailOnRecord(s.users, email) ==> r.None?
    ensures r.None? ==> !UserRepository.EmailOnRecord(s.users, email)
                        || exists u :: u in s.users.Values && u.email == email && !verify(password, u.passwordHash)
  {
    var found := UserRepository.FindByEmail(s.users, email);
    if found.None? || !verify(password, found.value.passwordHash) then None else found
  }

  /** With unique emails, login succeeds exactly when the password verifies
      against the hash of the user holding the email. */
  lemma LoginWithUniqueEmails(s: Store, id: Id, password: Option<string>,
                                                 verify: (Option<string>, Option<string>) -> bool)
    requires UniqueEmails(s.users)
    requires id in s.users && !IsNullOrEmpty(s.users[id].email)
    ensures Login(s, s.users[id].email, password, verify) ==
      if verify(password, s.users[id].passwordHash) then Some(s.users[id]) else None
  {
    UserRepository.FindByUniqueEmail(s.users, id);
  }

  /** A freshly registered account logs in with any password its hash verifies. */
  lemma RegisterThenLogin(s: Store, email: Option<string>, fullName: Option<string>,
                                             password: Option<string>, role: Option<string>,
                                             newId: Id, now: Time, hashed: string,
                                             verify: (Option<string>, Option<string>) -> bool)
    requires newId !in s.users
    requires Register(s, email, fullName, password, role, newId, now, hashed).outcome.Ok?
    requires verify(password, Some(hashed))
    ensures Login(Register(s, email, fullName, password, role, newId, now, hashed).store, email, password, verify)
            == Some(User(newId, email, Some(hashed), role, fullName, now))
  {
    var s1 := Register(s, email, fullName, password, role, newId, now, hashed).store;
    assert UserRepository.WithEmail(s1.users, email) == {newId};
  }
}
